=== FILE: README.md ===
# Vinci image loader: caching and scheduling core in Dafny

This project models the core of Vinci, an iOS image loader. A request for an
image URL and an optional chain of modifiers runs these steps:

1. A memory-only lookup, answered synchronously on a hit.
2. A full lookup across memory and disk, with the modified key tried before the
   base URL.
3. On a full miss, a queued `VinciRequestOperation` fetches the image. The
   result is cached under the base URL, modified, cached under the modified key,
   and handed to the completion handler.

The model covers:

- the two-tier `VinciCache`;
- the request orchestration, in both the current `Modifier` version and the
  earlier `Transformer` version;
- key derivation and the recency reweighting of the operation queue;
- the operation lifecycle;
- the base64url helpers on `Data`.

Images, the MD5 digest, the network and the file system are abstract values or
parameters. Asynchronous hops are taken one after another.

| file | module | models |
|---|---|---|
| `wrappers.dfy` | `Wrappers` | `Option`, standing for Swift's `T?` |
| `urls.dfy` | `Urls` | the part of `URL` used as a key; `appendingPathComponent` |
| `images.dfy` | `Images` | opaque images and the PNG/JPEG codec |
| `md5.dfy` | `Md5` | the digest shape: 32 lower-case hex characters |
| `vinci_cache.dfy` | `VinciCache` | `object`, `objectFromMemory`, `objectFromDisk`, `setObject`, `isPNG`, `isJPG` |
| `modifiers.dfy` | `Modifiers` | the `Modifier` protocol shape: an identifier plus an image function |
| `vinci.dfy` | `Vinci` | queue priorities, `addOperation`, `keyFor(url:modifiers:)`, the context |
| `vinci_request_operation.dfy` | `VinciRequestOperation` | `State`, `start`, `main`, `cancel`, `finish`, the data-task handler, whole lifecycles |
| `vinci_request.dfy` | `VinciRequest` | `get`, `cachedImage`, `modify`, `cancel` |
| `vinci_factory.dfy` | `VinciFactory` | `request(with:modifiers:completionHandler:)` and `request(with:completionHandler:)` |
| `legacy_vinci.dfy` | `LegacyVinci` | `addOperation` of the earlier `Vinci` class |
| `legacy_vinci_request.dfy` | `LegacyVinciRequest` | `get`, `cachedImage`, `doTransforms`, `cancel` of the earlier request |
| `base64.dfy` | `Base64` | standard base64 (section 4 of RFC 4648) as a reference encoder and decoder |
| `data_base64.dfy` | `DataBase64` | `base64URLEncodedString`, `init?(base64URLEncoded: String)`, `init?(base64URLEncoded: URL)` |

Modelling choices:

- The digest function `md5: string -> Md5.Digest` is a parameter.
- Whether a file removal or write succeeds is a parameter, `DiskIo`.
- The response data of a fetch is a parameter of `VinciRequest.Get`.
- `VinciCache.ClearMemory` stands for `NSCache` eviction.
- The earlier request is defined through the current one: each `Transformer` is
  read as the `Modifier` with the same identifier and function. Its promises are
  then stated again in transformer terms.

The code behaves as follows, which a reader might not expect:

- The disk file is named by the digest of `key.path` only, not of the whole key.
  Keys that differ only in host or query, or only by a trailing '/' in the path,
  share one file.
- The format test runs on the digest file name, which never carries an extension, so every
  file is written as PNG. `VinciCache.DigestIsAlwaysPng` proves this.
- `cancel()` on an operation that has not started leaves it `ready`, with the
  flag set. It becomes `finished` only when the queue calls `start()`.
- `start()` has no guard against a finished operation.
  `VinciRequestOperation.RestartFetchesAgain` shows that a second `start()`
  fetches again. The at-most-once completion guarantee therefore rests on the
  queue starting each operation once.
- `addOperation` rewrites the priority of every operation still in the queue,
  executing ones included.
- A memory-only lookup is not free of side effects. When it finds the base image
  and modifiers are set, it stores the modified image on both tiers.
- Modifiers run as a plain left fold: each one's output is the next one's input,
  and none of them can fail or be skipped.

## Model

| member | source | states |
|---|---|---|
| Urls.AppendingPathComponent | Sources/Vinci/Vinci.swift:159 | appending a component keeps scheme, host and query, keeps the old path as a prefix, and ends the path with '/' followed by the component |
| Urls.AppendingIsInjective | Sources/Vinci/Vinci.swift:159 | two different components appended to one URL give two different URLs |
| Urls.Path | Sources/Vinci/VinciCache.swift:116 | the `path` the file name is derived from is the URL's path with one trailing '/' dropped, the root path "/" excepted |
| Urls.TrailingSlashIsDropped | Sources/Vinci/VinciCache.swift:116 | a path and the same path with a trailing '/' give the same `path` |
| Images.Encode | Sources/Vinci/VinciCache.swift:122-128 | encoded image data decodes back to the image, and it is PNG data exactly when PNG was chosen |
| Images.Decode | Sources/Vinci/VinciCache.swift:94 | decoding fails exactly on bytes that are not an image |
| VinciCache.ClearMemory | Sources/Vinci/VinciCache.swift:38 | memory eviction empties the memory tier for every key and leaves the disk as it was |
| VinciCache.ObjectFromMemory | Sources/Vinci/VinciCache.swift:76-78 | the memory tier answers exactly for keys it holds, with the stored image |
| VinciCache.ObjectFromDisk | Sources/Vinci/VinciCache.swift:84-103 | the disk answers when the file named by the digest of the path exists and decodes; a hit is promoted into memory under the full key; otherwise nothing changes; the disk is never changed |
| VinciCache.Object | Sources/Vinci/VinciCache.swift:59-70 | a memory hit returns the memory image and changes nothing; a memory miss is exactly the disk lookup; any hit leaves the image in memory; a miss changes nothing; no other key's memory entry and no file changes |
| VinciCache.FormatFor | Sources/Vinci/VinciCache.swift:122-128 | JPEG is chosen exactly when the name passes the JPG test; a name passing only the PNG test gets PNG |
| VinciCache.SetObject | Sources/Vinci/VinciCache.swift:111-156 | the memory tier holds the image afterwards whatever the disk does; other keys and other files are unchanged; a successful write leaves a file that decodes to the image; a failed write leaves the old file or none, depending on the removal |
| VinciCache.MemoryHitChangesNothing | Sources/Vinci/VinciCache.swift:59-70 | a memory hit is answered without consulting the disk and with no state change |
| VinciCache.DiskHitIsPromoted | Sources/Vinci/VinciCache.swift:84-103 | when the key is not in memory and its file exists and decodes, the lookup returns the decoded file, and a memory-only lookup of the same key then returns the same image |
| VinciCache.MissChangesNothing | Sources/Vinci/VinciCache.swift:89-102 | a missing file, or one that does not decode, gives nil and no promotion |
| VinciCache.StoreSurvivesDiskFailure | Sources/Vinci/VinciCache.swift:111-156 | after a store, the key yields the image whatever the disk outcome |
| VinciCache.StoreThenLookup | Sources/Vinci/VinciCache.swift:111-156 | after a store whose write succeeds, the key yields the image, also after the memory tier is cleared |
| VinciCache.EqualPathsShareOneFile | Sources/Vinci/VinciCache.swift:84-118 | two keys with one path keep separate memory entries but share one file, where the last store wins |
| VinciCache.TrailingSlashSharesFile | Sources/Vinci/VinciCache.swift:84-118 | keys whose paths differ only by a trailing '/' share one file: once memory is cleared, the key without the slash answers with the image stored under the key with it |
| VinciCache.FormatExamples | Sources/Vinci/VinciCache.swift:173-183 | the suffix tests ignore case; "jpg" and "jpeg" give JPEG, "png" gives PNG, anything else defaults to PNG |
| VinciCache.IsPng | Sources/Vinci/VinciCache.swift:173-175 | a name passes the PNG test exactly when its last three characters lower-case to "png" |
| VinciCache.IsJpg | Sources/Vinci/VinciCache.swift:181-183 | a name passes the JPG test exactly when its last three characters lower-case to "jpg" or its last four to "jpeg" |
| VinciCache.DigestIsAlwaysPng | Sources/Vinci/VinciCache.swift:116-128 | a lower-case hex digest passes neither suffix test, so the PNG default is taken |
| VinciCache.StoredFilesArePng | Sources/Vinci/VinciCache.swift:116-152 | every file a store writes is PNG data of the stored image |
| Vinci.AddOperation | Sources/Vinci/Vinci.swift:122-141 | the operation is appended and nothing else is added, removed or reordered; the newest gets veryHigh, the next three high, normal and low, and all older ones veryLow; priorities do not increase from newest to oldest; on a queue already weighted, every older operation drops exactly one tier, stopping at veryLow |
| Vinci.AddOperationInPlace | Sources/Vinci/Vinci.swift:125-140 | the reversed enumeration loop assigns exactly the tiers `AddOperation` describes |
| Vinci.Bracketed | Sources/Vinci/Vinci.swift:158 | the joined bracketed identifiers are empty exactly when there are no identifiers |
| Vinci.KeyFor | Sources/Vinci/Vinci.swift:157-160 | the key keeps the URL's scheme, host, query and path prefix, ends with the bracketed identifiers in modifier order, and differs from the URL when there are modifiers |
| Vinci.BracketedIsInjective | Sources/Vinci/Vinci.swift:158 | for identifiers without ']', the joined component determines the identifier list |
| Vinci.KeyForIsInjective | Sources/Vinci/Vinci.swift:157-160 | for identifiers without ']', equal keys from one URL mean equal identifier sequences |
| Vinci.OrderChangesKey | Sources/Vinci/Vinci.swift:157-160 | for identifiers without ']', swapping two distinct identifiers changes the key |
| VinciRequestOperation.New | Sources/Vinci/VinciRequestOperation.swift:48-72 | a new operation is ready, neither executing nor finished, not cancelled, and has no data task |
| VinciRequestOperation.IsExecuting | Sources/Vinci/VinciRequestOperation.swift:65-67 | a ready or finished operation is not executing |
| VinciRequestOperation.IsFinished | Sources/Vinci/VinciRequestOperation.swift:70-72 | a finished operation is neither executing nor ready |
| VinciRequestOperation.Finish | Sources/Vinci/VinciRequestOperation.swift:153-157 | finish turns executing into finished and otherwise changes nothing |
| VinciRequestOperation.Main | Sources/Vinci/VinciRequestOperation.swift:122-142 | if cancelled, main finishes without a data task; otherwise it is executing with exactly one more data task running |
| VinciRequestOperation.Start | Sources/Vinci/VinciRequestOperation.swift:111-119 | a cancelled operation goes straight to finished and creates no task; otherwise it is executing with one new running data task |
| VinciRequestOperation.Cancel | Sources/Vinci/VinciRequestOperation.swift:145-150 | cancel sets the flag, cancels a running task, finishes an executing operation and leaves a ready one ready |
| VinciRequestOperation.Respond | Sources/Vinci/VinciRequestOperation.swift:130-139 | the handler calls the completion exactly once and then finishes; absent data, or a cancelled task, gives a nil image, and otherwise the decoded data |
| VinciRequestOperation.RunStaysReachable | Sources/Vinci/VinciRequestOperation.swift:111-157 | every admissible sequence of start, cancel and response calls keeps the operation within the reachable states |
| VinciRequestOperation.Lifecycle | Sources/Vinci/VinciRequestOperation.swift:111-157 | for every admissible order of calls (the queue starts the operation at most once, and URLSession answers only a running task), at most one data task and one completion occur; once started, an operation that has been answered or cancelled is finished |
| VinciRequestOperation.CancelledBeforeStart | Sources/Vinci/VinciRequestOperation.swift:111-115 | an operation cancelled before the queue starts it creates no data task and never calls its completion |
| VinciRequestOperation.CancelledStaysIdle | Sources/Vinci/VinciRequestOperation.swift:111-126 | a cancelled operation without a task never gains one and never completes, whatever calls follow |
| VinciRequestOperation.RestartFetchesAgain | Sources/Vinci/VinciRequestOperation.swift:111-119 | starting a finished, uncancelled operation again creates a second task and a second completion |
| VinciRequest.ApplyConcat | Sources/Vinci/VinciRequest.swift:171-179 | applying a concatenated chain is applying its two parts in turn |
| VinciRequest.Apply | Sources/Vinci/VinciRequest.swift:171-179 | an empty chain is the identity, and a non-empty chain's result is its last modifier applied to the result of the rest, which is the order the loop runs in |
| VinciRequest.Modify | Sources/Vinci/VinciRequest.swift:171-179 | the loop is the left fold of the modifiers; a nil list returns the image unchanged |
| VinciRequest.Modified | Sources/Vinci/VinciRequest.swift:171-179 | a nil or empty list is the identity; a non-empty list applies its first modifier and then the rest |
| VinciRequest.ModifiedKey | Sources/Vinci/VinciRequest.swift:136-140 | the modified key is never the base URL |
| VinciRequest.Probe | Sources/Vinci/VinciRequest.swift:137-150 | a memory-only query is `objectFromMemory` and changes nothing; a full query is exactly `object(forKey:)`; a miss changes nothing; the disk is never changed by a lookup |
| VinciRequest.CachedImage | Sources/Vinci/VinciRequest.swift:132-163 | the modified key is tried first and wins on a hit; only then is the base URL tried, and a base hit is modified and stored under the modified key; when both keys miss, the answer is nil and nothing is written; without modifiers only the base URL is queried; a returned modified image is in memory under the modified key |
| VinciRequest.Deliver | Sources/Vinci/VinciRequest.swift:96-120 | a nil image gives nil and no writes; an image is stored under the URL, its modified form under the modified key when there are modifiers, and the modified form is returned; with a successful write, each stored image is also read back from disk once memory is cleared, unless the digest maps the two paths to one file; a failed write adds or changes no file, and with a failed removal too the disk is as it was; no other memory entry and no other file changes |
| VinciRequest.Get | Sources/Vinci/VinciRequest.swift:67-125 | the answer comes from cache exactly when the memory-only or the full lookup hits, and is synchronous exactly on a memory-only hit; a cached answer is that lookup's image and leaves that lookup's cache, and queues nothing; an uncached answer follows two misses and queues exactly one operation, which ends finished after one task and one completion; a nil or undecodable fetch gives nil and leaves the cache as it was; a fetched image is cached under the URL and, modified, under the modified key, on disk as well as in memory when the write succeeds, and is returned modified; a failed write adds or changes no file, and with a failed removal too the disk is as it was; a fetch changes no other memory entry and no other file |
| VinciRequest.Cancel | Sources/Vinci/VinciRequest.swift:128-130 | cancel forwards to the operation's own cancel, so the operation is flagged, its running data task aborted and it is no longer executing; without an operation it does nothing |
| VinciRequest.Fresh | Sources/Vinci/VinciRequest.swift:46-48 | a newly initialised request owns no operation, so `cancel()` on it has no effect |
| VinciRequest.MemoryHitIsImmediate | Sources/Vinci/VinciRequest.swift:70-77 | a memory hit on the request's key calls the completion synchronously with the cached image and creates no operation |
| VinciRequest.MemoryOnlyPathWritesDisk | Sources/Vinci/VinciRequest.swift:152-158 | a base image found by the memory-only lookup is modified and written to disk under the modified key |
| VinciRequest.NoModifiersWritesNothing | Sources/Vinci/VinciRequest.swift:136-154 | without modifiers only the base URL is consulted and the disk is not written |
| VinciRequest.FailedFetchWritesNothing | Sources/Vinci/VinciRequest.swift:99-104 | after two misses, a fetch with no data gives `completion(nil, false)` and no cache change |
| VinciRequest.FetchThenHit | Sources/Vinci/VinciRequest.swift:67-125 | from an empty cache and without modifiers, a fetch of image I gives (I, not cached); the same request again gives (I, cached), synchronously, with no operation |
| VinciRequest.ModifiersOverCachedBase | Sources/Vinci/VinciRequest.swift:144-160 | with only the base image cached, a request with modifiers returns the modified image from cache and queues nothing |
| VinciRequest.FetchThenHitAnyCache | Sources/Vinci/VinciRequest.swift:67-125 | from any state in which the full lookup misses, with any modifiers: a fetch of image I gives (modified I, not cached); the same request again gives the same image, cached and synchronous, with no operation and no state change |
| VinciRequest.CachedImageAfterBaseStore | Sources/Vinci/VinciRequest.swift:144-160 | once the base image is stored, a lookup with modifiers whose modified key misses returns the modified base image, on either path |
| VinciFactory.RequestWith | Sources/Vinci/Vinci.swift:98-104 | the factory returns a fresh request on which `get` ran with the same URL and modifiers; it owns an operation exactly when the answer was not cached |
| VinciFactory.RequestWithoutModifiers | Sources/Vinci/Vinci.swift:113-115 | the factory without modifiers returns a fetched image unmodified |
| LegacyVinci.AddOperation | Vinci/Classes/Vinci.swift:120-139 | the earlier reweighting appends one operation and only rewrites priorities: veryHigh for the newest, then high, normal and low, then veryLow; priorities do not increase from newest to oldest |
| LegacyVinciRequest.Transformed | Vinci/Classes/VinciRequest.swift:171-179 | a nil or empty transformer list is the identity |
| LegacyVinciRequest.TransformAllConcat | Vinci/Classes/VinciRequest.swift:171-179 | transforming by a concatenated list is transforming by its two parts in turn |
| LegacyVinciRequest.TransformAllIsApply | Vinci/Classes/VinciRequest.swift:171-179 | the transformer fold equals the modifier fold of the same identifiers and functions |
| LegacyVinciRequest.DoTransforms | Vinci/Classes/VinciRequest.swift:171-179 | the loop is the left fold of the transformers; a nil list returns the image unchanged |
| LegacyVinciRequest.KeyFor | Vinci/Classes/VinciRequest.swift:113 | the transformed key is the URL with one path component of bracketed transformer identifiers, and differs from the URL when there are transformers |
| LegacyVinciRequest.CachedImage | Vinci/Classes/VinciRequest.swift:132-163 | the transformed key is tried before the base URL; a base hit is transformed and stored under the transformed key; when both keys miss, the answer is nil and nothing is written |
| LegacyVinciRequest.Get | Vinci/Classes/VinciRequest.swift:67-125 | the answer comes from cache exactly when the memory-only or the full lookup hits, and is synchronous exactly on a memory-only hit; a cached answer is that lookup's image and leaves that lookup's cache; an uncached answer follows two misses and queues exactly one operation, which ends finished after one task and one completion; a nil fetch gives nil and no writes; a fetched image is cached, transformed and cached under the transformed key (on disk too when the write succeeds), and returned with cached=false; a failed write adds or changes no file, and with a failed removal too the disk is as it was; a fetch changes no other memory entry and no other file |
| LegacyVinciRequest.Cancel | Vinci/Classes/VinciRequest.swift:128-130 | cancel forwards to the operation if one exists and otherwise has no effect |
| Base64.Encode | Vinci/Classes/Data+Base64.swift:55 | the standard encoding of n bytes is 4 * ceil(n/3) characters long, and empty only for no bytes |
| Base64.Decode | Vinci/Classes/Data+Base64.swift:41 | standard decoding accepts only lengths that are multiples of 4 |
| Base64.RoundTrip | Vinci/Classes/Data+Base64.swift:41-55 | standard decoding undoes standard encoding |
| Base64.EncodeShape | Vinci/Classes/Data+Base64.swift:55-58 | the standard encoding is alphabet characters followed by exactly (3 - n mod 3) mod 3 '=' |
| Base64.ThreePadsRejected | Vinci/Classes/Data+Base64.swift:39-41 | a string whose last group is one character and three '=' never decodes |
| DataBase64.PaddingLength | Vinci/Classes/Data+Base64.swift:39-40 | the decoder adds 0 to 3 '=' and the padded length is a multiple of 4 |
| DataBase64.EncodedString | Vinci/Classes/Data+Base64.swift:54-59 | the output has no '+', '/' or '='; it is ceil(4n/3) long; it is the standard encoding with '/' as '_' and '+' as '-' and the trailing '=' removed |
| DataBase64.UnpaddedLength | Vinci/Classes/Data+Base64.swift:54-59 | removing the padding from 4 * ceil(n/3) characters leaves ceil(4n/3) |
| DataBase64.DecodeString | Vinci/Classes/Data+Base64.swift:35-42 | a string whose length is 1 mod 4 is rejected |
| DataBase64.DecodeUrl | Vinci/Classes/Data+Base64.swift:47-49 | the URL initializer decodes the URL's `path` unchanged: a path with '-' or '_', or not a multiple of 4 long, is rejected |
| DataBase64.UrlInitializerDecodesStandard | Vinci/Classes/Data+Base64.swift:47-49 | a URL whose `path` is the standard base64 encoding of some data decodes to that data |
| DataBase64.DecodableCharacters | Vinci/Classes/Data+Base64.swift:47-49 | a decodable string holds only alphabet characters and '=' |
| DataBase64.RoundTrip | Vinci/Classes/Data+Base64.swift:35-59 | decoding the URL-safe encoding with the string initializer gives back the data |
| DataBase64.UrlInitializerDoesNotTranslate | Vinci/Classes/Data+Base64.swift:47-49 | a URL-safe encoding that uses '-' or '_', or is not a multiple of 4 long, is decoded by the string initializer but rejected by the URL initializer |

## Left out

- Threads: `DispatchQueue` hops and callback delivery on the main thread are left out. Each request runs as one sequence of steps.
- `OperationQueue` admission is left out: the limit of 8 concurrent operations, the choice of the next operation by priority, and the removal of finished operations. The model keeps the queue as it stands right after `addOperation`.
- KVO: the `willChangeValue`/`didChangeValue` notifications of `state` are left out; `state` is a plain field.
- URLSession is left out. The response data is a parameter, and the response and error objects are not modelled. A cancelled task reports no data.
- FileManager: directory creation, its failure and the logging are folded into the `DiskIo` outcome of the write.
- `NSCache` capacity eviction is left out. Only a full clear (`ClearMemory`) is modelled.
- MD5 itself (RFC 1321) is left out. The digest is a parameter of the model, and only its shape (32 lower-case hex characters) is fixed.
- The image codec is opaque. JPEG decoding is taken to be lossless, which never matters because JPEG is never chosen.
- A nil result from `pngData()`, which would crash at the implicitly unwrapped `data`, is left out.
- The concrete modifiers and transformers (`Modifier.swift`, `Transformer.swift`, `UIImage+Modify.swift`) are left out. They are floating-point image filters; only an identifier and an image function are kept.
- The Example app is user interface code and is left out.
- The race on `self.operation`, assigned on a background queue and read by `cancel()`, is concurrency and is left out.
- The earlier `request(with:transformHandler:completionHandler:)` is left out: `VinciRequest.TransformHandler` and `keyFor(url:transformers:)` are not defined in the earlier sources. The transformer key reuses the current `keyFor` shape.
- `base64EncodedURL()` is left out: it parses a URL string and stops with `fatalError` on failure, and URL parsing is not modelled.
- `get(url:completionHandler:)` is left out: it is `get` with nil modifiers. `request()` only returns what `init(vinci:)` creates, which is `VinciRequest.Fresh`.
- URL identity is structural over scheme, host, path and query. `URL.path` is modelled as dropping one trailing '/', and its percent-decoding is not modelled. Percent-encoding of '[' and ']' in the appended component is not modelled.
- `lowercased()` is modelled for ASCII letters only.
- The base64 decoder in `Base64` stands in for Foundation's `Data(base64Encoded:)`, which is not part of this model. It does not reject non-zero unused bits in a padded group. The string length is counted in characters.
- VinciRequest.Get: models the run in which the operation is started once and never cancelled; cancellation is stated on the operation and on `Cancel`, and every disk write within one call meets the same `DiskIo` outcome.
- LegacyVinciRequest.Get: inherits the same limits as `VinciRequest.Get`.

=== FILE: base64.dfy ===
/**
 * Standard base64 (section 4 of RFC 4648) as a reference for the URL-safe
 * helpers: 3-byte groups become 4 characters of the 64-character alphabet,
 * and a final group of 1 or 2 bytes is completed with '=' (section 3.2).
 * The decoder demands a length that is a multiple of 4 and padding only in
 * the final group; it does not insist that the unused bits of a padded group
 * are zero.
 */
module Base64 {
  import opened Wrappers

  type byte = b: int | 0 <= b < 256
  type sextet = v: int | 0 <= v < 64

  const Pad: char := '='

  /** The alphabet: 'A'-'Z', 'a'-'z', '0'-'9', '+', '/'. */
  function Char(v: sextet): (c: char)
    ensures Index(c) == Some(v)
  {
    if v < 26 then ('A' as int + v) as char
    else if v < 52 then ('a' as int + v - 26) as char
    else if v < 62 then ('0' as int + v - 52) as char
    else if v == 62 then '+'
    else '/'
  }

  /** The value of an alphabet character; None for everything else, '=' included. */
  function Index(c: char): (r: Option<sextet>)
    ensures r.Some? ==> c != Pad
  {
    if 'A' <= c <= 'Z' then Some(c as int - 'A' as int)
    else if 'a' <= c <= 'z' then Some(c as int - 'a' as int + 26)
    else if '0' <= c <= '9' then Some(c as int - '0' as int + 52)
    else if c == '+' then Some(62)
    else if c == '/' then Some(63)
    else None
  }

  predicate InAlphabet(c: char) {
    Index(c).Some?
  }

  /** Every alphabet character is the character of its value. */
  lemma CharOfIndex(c: char)
    requires InAlphabet(c)
    ensures Char(Index(c).value) == c
  {
  }

  /** The three bytes spread over four sextets c0 c1 c2 c3. */
  function First(c0: sextet, c1: sextet): byte {
    (c0 as int) * 4 + (c1 as int) / 16
  }

  function Second(c1: sextet, c2: sextet): byte {
    ((c1 as int) % 16) * 16 + (c2 as int) / 4
  }

  function Third(c2: sextet, c3: sextet): byte {
    ((c2 as int) % 4) * 64 + c3 as int
  }

  /** Three bytes as four characters. */
  function EncodeGroup(a: byte, b: byte, c: byte): (s: string)
    ensures |s| == 4 && forall i :: 0 <= i < 4 ==> InAlphabet(s[i])
  {
    [Char(a / 4), Char((a % 4) * 16 + b / 16), Char((b % 16) * 4 + c / 64), Char(c % 64)]
  }

  /** `base64EncodedString()`. */
  function Encode(d: seq<byte>): (s: string)
    ensures |s| == 4 * ((|d| + 2) / 3)
    ensures |d| > 0 <==> |s| >= 4
    decreases |d|
  {
    if |d| == 0 then ""
    else if |d| == 1 then [Char(d[0] / 4), Char((d[0] % 4) * 16), Pad, Pad]
    else if |d| == 2 then [Char(d[0] / 4), Char((d[0] % 4) * 16 + d[1] / 16), Char((d[1] % 16) * 4), Pad]
    else EncodeGroup(d[0], d[1], d[2]) + Encode(d[3..])
  }

  /** Four alphabet characters as three bytes. */
  function DecodeGroup(s: string): Option<seq<byte>>
    requires |s| == 4
  {
    match (Index(s[0]), Index(s[1]), Index(s[2]), Index(s[3]))
    case (Some(c0), Some(c1), Some(c2), Some(c3)) =>
      Some([First(c0, c1), Second(c1, c2), Third(c2, c3)])
    case _ => None
  }

  /** The last group, which may end in "==" (one byte) or "=" (two bytes). */
  function DecodeLastGroup(s: string): Option<seq<byte>>
    requires |s| == 4
  {
    if s[2] == Pad && s[3] == Pad then
      match (Index(s[0]), Index(s[1]))
      case (Some(c0), Some(c1)) => Some([First(c0, c1)])
      case _ => None
    else if s[3] == Pad then
      match (Index(s[0]), Index(s[1]), Index(s[2]))
      case (Some(c0), Some(c1), Some(c2)) => Some([First(c0, c1), Second(c1, c2)])
      case _ => None
    else DecodeGroup(s)
  }

  /** `Data(base64Encoded:)`. */
  function Decode(s: string): (r: Option<seq<byte>>)
    ensures r.Some? ==> |s| % 4 == 0
    decreases |s|
  {
    if |s| == 0 then Some([])
    else if |s| % 4 != 0 then None
    else if |s| == 4 then DecodeLastGroup(s)
    else match DecodeGroup(s[..4])
      case None => None
      case Some(group) =>
        match Decode(s[4..])
        case None => None
        case Some(rest) => Some(group + rest)
  }

  // ---------------------------------------------------------------------------
  // Properties
  // ---------------------------------------------------------------------------

  lemma GroupRoundTrip(a: byte, b: byte, c: byte)
    ensures DecodeGroup(EncodeGroup(a, b, c)) == Some([a, b, c])
    ensures DecodeLastGroup(EncodeGroup(a, b, c)) == Some([a, b, c])
  {
    var c1 := (a % 4) * 16 + b / 16;
    var c2 := (b % 16) * 4 + c / 64;
    assert c1 / 16 == a % 4 && c1 % 16 == b / 16;
    assert c2 / 4 == b % 16 && c2 % 4 == c / 64;
  }

  lemma RoundTripOne(a: byte)
    ensures Decode(Encode([a])) == Some([a])
  {
    var c0: sextet, c1: sextet := a / 4, (a % 4) * 16;
    var s := Encode([a]);
    assert s == [Char(c0), Char(c1), Pad, Pad];
    assert First(c0, c1) == a;
    assert DecodeLastGroup(s) == Some([First(c0, c1)]);
  }

  lemma RoundTripTwo(a: byte, b: byte)
    ensures Decode(Encode([a, b])) == Some([a, b])
  {
    var c0: sextet, c1: sextet, c2: sextet := a / 4, (a % 4) * 16 + b / 16, (b % 16) * 4;
    var s := Encode([a, b]);
    assert s == [Char(c0), Char(c1), Char(c2), Pad];
    assert c1 / 16 == a % 4 && c1 % 16 == b / 16 && c2 / 4 == b % 16;
    assert First(c0, c1) == a && Second(c1, c2) == b;
    assert Char(c2) != Pad;
    assert DecodeLastGroup(s) == Some([First(c0, c1), Second(c1, c2)]);
  }

  /** A full group in front of a non-empty valid encoding decodes group by group. */
  lemma DecodeFront(g: string, rest: string)
    requires |g| == 4 && DecodeGroup(g).Some?
    requires |rest| > 0 && Decode(rest).Some?
    ensures Decode(g + rest) == Some(DecodeGroup(g).value + Decode(rest).value)
  {
    var s := g + rest;
    assert s[..4] == g;
    assert s[4..] == rest;
  }

  lemma SplitFront(d: seq<byte>)
    requires |d| >= 3
    ensures d == [d[0], d[1], d[2]] + d[3..]
  {
  }

  lemma EncodeFront(d: seq<byte>)
    requires |d| >= 3
    ensures Encode(d) == EncodeGroup(d[0], d[1], d[2]) + Encode(d[3..])
  {
  }

  lemma RoundTripThree(a: byte, b: byte, c: byte)
    ensures Decode(Encode([a, b, c])) == Some([a, b, c])
  {
    var d := [a, b, c];
    EncodeFront(d);
    assert d[3..] == [];
    assert Encode(d) == EncodeGroup(a, b, c);
    GroupRoundTrip(a, b, c);
  }

  /** Decoding undoes encoding. */
  lemma {:induction false} RoundTrip(d: seq<byte>)
    ensures Decode(Encode(d)) == Some(d)
    decreases |d|
  {
    if |d| == 1 {
      assert d == [d[0]];
      RoundTripOne(d[0]);
    } else if |d| == 2 {
      assert d == [d[0], d[1]];
      RoundTripTwo(d[0], d[1]);
    } else if |d| == 3 {
      assert d == [d[0], d[1], d[2]];
      RoundTripThree(d[0], d[1], d[2]);
    } else if |d| > 3 {
      SplitFront(d);
      EncodeFront(d);
      GroupRoundTrip(d[0], d[1], d[2]);
      RoundTrip(d[3..]);
      var g, t := EncodeGroup(d[0], d[1], d[2]), Encode(d[3..]);
      assert |t| >= 4;
      DecodeFront(g, t);
    }
  }

  /** The number of '=' that complete the last group of n bytes. */
  function PadCount(n: nat): (k: nat)
    ensures k <= 2
    ensures (n + k) % 3 == 0
  {
    (3 - n % 3) % 3
  }

  /**
   * The encoding is alphabet characters followed by exactly `PadCount(n)`
   * padding characters.
   */
  lemma {:induction false} EncodeShape(d: seq<byte>)
    ensures var s := Encode(d);
      && PadCount(|d|) <= |s|
      && (forall i :: 0 <= i < |s| - PadCount(|d|) ==> InAlphabet(s[i]))
      && (forall i :: |s| - PadCount(|d|) <= i < |s| ==> s[i] == Pad)
    decreases |d|
  {
    if |d| >= 3 {
      EncodeShape(d[3..]);
      var s := Encode(d);
      var g := EncodeGroup(d[0], d[1], d[2]);
      assert s == g + Encode(d[3..]);
      assert PadCount(|d|) == PadCount(|d[3..]|);
      forall i | 4 <= i < |s|
        ensures s[i] == Encode(d[3..])[i - 4]
      {
      }
    }
  }

  /** A last group of one character and three '=' is never valid. */
  lemma {:induction false} ThreePadsRejected(s: string)
    requires |s| % 4 == 0 && |s| >= 4
    requires s[|s| - 3] == Pad && s[|s| - 2] == Pad && s[|s| - 1] == Pad
    ensures Decode(s) == None
    decreases |s|
  {
    if |s| > 4 {
      ThreePadsRejected(s[4..]);
    }
  }
}

=== FILE: data_base64.dfy ===
/**
 * The `Data` extension with base64url helpers: the URL-safe alphabet of
 * section 5 of RFC 4648 ('-' and '_' in place of '+' and '/') without the
 * '=' padding of section 3.2, obtained by rewriting the standard encoding.
 */
module DataBase64 {
  import opened Wrappers
  import opened Urls
  import opened Base64

  /** `replacingOccurrences(of:with:)` for a single character. */
  function Replace(s: string, from: char, to: char): (r: string)
    ensures |r| == |s|
    ensures forall i :: 0 <= i < |s| ==> r[i] == (if s[i] == from then to else s[i])
  {
    seq(|s|, i requires 0 <= i < |s| => if s[i] == from then to else s[i])
  }

  /** `replacingOccurrences(of: c, with: "")`. */
  function Remove(s: string, c: char): (r: string)
    ensures c !in r
    ensures |r| <= |s|
    decreases |s|
  {
    if |s| == 0 then ""
    else (if s[0] == c then "" else [s[0]]) + Remove(s[1..], c)
  }

  /** `String(repeating: c, count: n)`. */
  function Repeat(c: char, n: nat): (r: string)
    ensures |r| == n
    ensures forall i :: 0 <= i < n ==> r[i] == c
  {
    seq(n, i requires 0 <= i < n => c)
  }

  /** A standard character as the URL-safe alphabet writes it. */
  function UrlSafe(c: char): (r: char)
    ensures r != '+' && r != '/'
    ensures InAlphabet(c) ==> Unsafe(r) == c
  {
    if c == '/' then '_' else if c == '+' then '-' else c
  }

  /** A URL-safe character as the standard alphabet writes it. */
  function Unsafe(c: char): char {
    if c == '_' then '/' else if c == '-' then '+' else c
  }

  /** The decoder's padding: `(4 - (n % 4)) % 4` characters. */
  function PaddingLength(n: nat): (k: nat)
    ensures k <= 3
    ensures (n + k) % 4 == 0
    ensures n % 4 == 0 ==> k == 0
  {
    (4 - n % 4) % 4
  }

  // ---------------------------------------------------------------------------
  // Encoding
  // ---------------------------------------------------------------------------

  /** Removing a character from a string that has it only as a tail leaves the head. */
  lemma {:induction false} RemoveTail(s: string, c: char, head: nat)
    requires head <= |s|
    requires forall i :: 0 <= i < head ==> s[i] != c
    requires forall i :: head <= i < |s| ==> s[i] == c
    ensures Remove(s, c) == s[..head]
    decreases |s|
  {
    if |s| > 0 {
      if head == 0 {
        RemoveTail(s[1..], c, 0);
      } else {
        RemoveTail(s[1..], c, head - 1);
        assert s[..head] == [s[0]] + s[1..][..head - 1];
      }
    }
  }

  /** ceil(4n/3) characters remain once the padding of 4 * ceil(n/3) is removed. */
  lemma UnpaddedLength(n: nat)
    ensures 4 * ((n + 2) / 3) - PadCount(n) == (4 * n + 2) / 3
  {
    var q := n / 3;
    assert n == 3 * q + n % 3;
    if n % 3 == 0 {
      assert (n + 2) / 3 == q;
      assert (4 * n + 2) / 3 == 4 * q;
    } else if n % 3 == 1 {
      assert (n + 2) / 3 == q + 1;
      assert (4 * n + 2) / 3 == 4 * q + 2;
    } else {
      assert (n + 2) / 3 == q + 1;
      assert (4 * n + 2) / 3 == 4 * q + 3;
    }
  }

  /**
   * `base64URLEncodedString()`: the standard encoding with '/' written '_',
   * '+' written '-', and every '=' removed.
   */
  function EncodedString(d: seq<byte>): (r: string)
    ensures '+' !in r && '/' !in r && '=' !in r
    ensures |r| == (4 * |d| + 2) / 3
    ensures |r| + PadCount(|d|) == |Encode(d)|
    ensures forall i :: 0 <= i < |r| ==> r[i] == UrlSafe(Encode(d)[i])
    ensures forall i :: |r| <= i < |Encode(d)| ==> Encode(d)[i] == Pad
  {
    var standard := Encode(d);
    var mapped := Replace(Replace(standard, '/', '_'), '+', '-');
    EncodeShape(d);
    var head := |standard| - PadCount(|d|);
    assert forall i :: 0 <= i < |standard| ==> mapped[i] == UrlSafe(standard[i]);
    RemoveTail(mapped, '=', head);
    UnpaddedLength(|d|);
    Remove(mapped, '=')
  }

  // ---------------------------------------------------------------------------
  // Decoding
  // ---------------------------------------------------------------------------

  /**
   * `init?(base64URLEncoded: String)`: '_' back to '/', '-' back to '+',
   * padding up to a multiple of 4, then standard decoding.
   */
  function DecodeString(s: string): (r: Option<seq<byte>>)
    ensures |s| % 4 == 1 ==> r.None?
  {
    var encoded := Replace(Replace(s, '_', '/'), '-', '+');
    var padded := encoded + Repeat(Pad, PaddingLength(|encoded|));
    if |s| % 4 == 1 then
      ThreePadsRejected(padded);
      Decode(padded)
    else
      Decode(padded)
  }

  /** Every character of a decodable string is an alphabet character or padding. */
  lemma {:induction false} DecodableCharacters(s: string)
    requires Decode(s).Some?
    ensures forall i :: 0 <= i < |s| ==> InAlphabet(s[i]) || s[i] == Pad
    decreases |s|
  {
    if |s| > 4 {
      DecodableCharacters(s[4..]);
      forall i | 4 <= i < |s|
        ensures InAlphabet(s[i]) || s[i] == Pad
      {
        assert s[i] == s[4..][i - 4];
      }
    }
  }

  /**
   * `init?(base64URLEncoded: URL)`: the URL's `path` decoded as standard
   * base64 as it is, with no translation of '-' and '_' and no padding added.
   */
  function DecodeUrl(u: Url): (r: Option<seq<byte>>)
    ensures r.Some? ==> |Path(u)| % 4 == 0
    ensures ('-' in Path(u) || '_' in Path(u)) ==> r.None?
  {
    var path := Path(u);
    if Decode(path).Some? then
      DecodableCharacters(path);
      Decode(path)
    else
      None
  }

  // ---------------------------------------------------------------------------
  // Properties
  // ---------------------------------------------------------------------------

  /** Translating the URL-safe characters back gives the unpadded standard encoding. */
  lemma Unmapped(d: seq<byte>)
    ensures var r := EncodedString(d);
      Replace(Replace(r, '_', '/'), '-', '+') == Encode(d)[..|r|]
  {
    var standard := Encode(d);
    var r := EncodedString(d);
    EncodeShape(d);
    var encoded := Replace(Replace(r, '_', '/'), '-', '+');
    forall i | 0 <= i < |r|
      ensures encoded[i] == standard[i]
    {
      assert r[i] == UrlSafe(standard[i]);
      assert Unsafe(r[i]) == standard[i];
    }
  }

  /** The decoder re-adds exactly the padding the encoder removed. */
  lemma PaddingRestored(head: nat, pads: nat, total: nat)
    requires head + pads == total && total % 4 == 0 && pads <= 2
    ensures PaddingLength(head) == pads
  {
  }

  lemma PadsCompleteString(s: string, head: nat)
    requires head <= |s|
    requires forall i :: head <= i < |s| ==> s[i] == Pad
    ensures s[..head] + Repeat(Pad, |s| - head) == s
  {
  }

  lemma RepaddedIsStandard(d: seq<byte>)
    ensures var r := EncodedString(d);
      Encode(d)[..|r|] + Repeat(Pad, PaddingLength(|r|)) == Encode(d)
  {
    var standard := Encode(d);
    var r := EncodedString(d);
    var groups := (|d| + 2) / 3;
    assert |standard| == 4 * groups;
    assert |standard| % 4 == 0;
    PaddingRestored(|r|, PadCount(|d|), |standard|);
    PadsCompleteString(standard, |r|);
  }

  /** Decoding the URL-safe encoding gives back the data. */
  lemma RoundTrip(d: seq<byte>)
    ensures DecodeString(EncodedString(d)) == Some(d)
  {
    var r := EncodedString(d);
    Unmapped(d);
    RepaddedIsStandard(d);
    Base64.RoundTrip(d);
  }

  /**
   * The URL initializer decodes a path that is a standard encoding: it reads
   * the standard alphabet with its padding.
   */
  lemma UrlInitializerDecodesStandard(d: seq<byte>, u: Url)
    requires Path(u) == Encode(d)
    ensures DecodeUrl(u) == Some(d)
  {
    Base64.RoundTrip(d);
  }

  /**
   * A URL-safe encoding that uses '-' or '_' (or is not a multiple of 4 long)
   * is accepted by the string initializer but not by the URL initializer.
   */
  lemma UrlInitializerDoesNotTranslate(d: seq<byte>, u: Url)
    requires u.path == EncodedString(d)
    requires '-' in u.path || '_' in u.path || |u.path| % 4 != 0
    ensures DecodeString(u.path) == Some(d)
    ensures DecodeUrl(u) == None
  {
    RoundTrip(d);
    assert |u.path| > 1 ==> u.path[|u.path| - 1] in u.path;
    assert Path(u) == u.path;
  }
}

=== FILE: images.dfy ===
/**
 * The image codec the cache and the operation rely on (`UIImage(data:)`,
 * `pngData()`, `jpegData(compressionQuality:)`), kept abstract: an image is an
 * opaque token and encoded bytes remember which image and format they came from.
 */
module Images {
  import opened Wrappers

  /** An opaque decoded image. */
  datatype Image = Image(id: nat)

  /** The two formats the cache can write. */
  datatype Format = Png | Jpeg

  /** Raw bytes as read from a file or a response body. */
  datatype Bytes = PngData(png: Image) | JpegData(jpeg: Image) | Undecodable

  /** Encodes an image in the given format. */
  function Encode(img: Image, format: Format): (b: Bytes)
    ensures Decode(b) == Some(img)
    ensures format == Png <==> b.PngData?
  {
    match format
    case Png => PngData(img)
    case Jpeg => JpegData(img)
  }

  /** Decodes bytes into an image, or None when they are not an image. */
  function Decode(b: Bytes): (r: Option<Image>)
    ensures r.None? <==> b.Undecodable?
  {
    match b
    case PngData(img) => Some(img)
    case JpegData(img) => Some(img)
    case Undecodable => None
  }
}

=== FILE: legacy_vinci.dfy ===
/**
 * The earlier `Vinci` class (the `Transformer` era). Its queue reweighting is
 * the same as the current one.
 */
module LegacyVinci {
  import Vinci

  /** `addOperation(_:)` of the earlier class. */
  function AddOperation(q: seq<Vinci.Queued>, id: nat): (r: seq<Vinci.Queued>)
    ensures Vinci.Ids(r) == Vinci.Ids(q) + [id]
    ensures r[|q|].priority == Vinci.VeryHigh
    ensures |q| >= 1 ==> r[|q| - 1].priority == Vinci.High
    ensures |q| >= 2 ==> r[|q| - 2].priority == Vinci.Normal
    ensures |q| >= 3 ==> r[|q| - 3].priority == Vinci.Low
    ensures forall i :: 0 <= i < |q| - 3 ==> r[i].priority == Vinci.VeryLow
    ensures forall i, j :: 0 <= i <= j < |r| ==> Vinci.RawValue(r[i].priority) <= Vinci.RawValue(r[j].priority)
  {
    Vinci.AddOperation(q, id)
  }
}

=== FILE: legacy_vinci_request.dfy ===
/**
 * The earlier `VinciRequest`, written against the `Transformer` protocol. Its
 * control flow is the current request's with transformers in place of
 * modifiers, so it is defined through that model and its promises are
 * restated here in transformer terms.
 */
module LegacyVinciRequest {
  import opened Wrappers
  import opened Urls
  import opened Images
  import opened Modifiers
  import opened VinciCache
  import Vinci
  import Op = VinciRequestOperation
  import R = VinciRequest

  /** The shape of the `Transformer` protocol. */
  datatype Transformer = Transformer(identifier: string, doTransform: Image -> Image)

  /** A transformer list seen as the equivalent modifier list. */
  function AsModifiers(ts: seq<Transformer>): (ms: seq<Modifier>)
    ensures |ms| == |ts|
    ensures forall i :: 0 <= i < |ts| ==>
              ms[i].identifier == ts[i].identifier && ms[i].apply == ts[i].doTransform
  {
    seq(|ts|, i requires 0 <= i < |ts| => Modifier(ts[i].identifier, ts[i].doTransform))
  }

  function AsModifierList(ts: Option<seq<Transformer>>): (r: Option<seq<Modifier>>)
    ensures r.Some? <==> ts.Some?
    ensures R.HasModifiers(r) <==> HasTransformers(ts)
  {
    match ts
    case None => None
    case Some(list) => Some(AsModifiers(list))
  }

  /** The transformer list is present and not empty. */
  predicate HasTransformers(ts: Option<seq<Transformer>>) {
    ts.Some? && |ts.value| > 0
  }

  /** The transformers applied one after the other, first to last. */
  function TransformAll(image: Image, ts: seq<Transformer>): Image
    decreases |ts|
  {
    if |ts| == 0 then image else TransformAll(ts[0].doTransform(image), ts[1..])
  }

  /** What `doTransforms` returns: a missing or empty list leaves the image alone. */
  function Transformed(image: Image, ts: Option<seq<Transformer>>): (r: Image)
    ensures !HasTransformers(ts) ==> r == image
  {
    if ts.None? then image else TransformAll(image, ts.value)
  }

  lemma {:induction false} TransformAllConcat(image: Image, a: seq<Transformer>, b: seq<Transformer>)
    ensures TransformAll(image, a + b) == TransformAll(TransformAll(image, a), b)
    decreases |a|
  {
    if |a| > 0 {
      assert (a + b)[1..] == a[1..] + b;
      TransformAllConcat(a[0].doTransform(image), a[1..], b);
    } else {
      assert a + b == b;
    }
  }

  /** Transforming is modifying with the equivalent modifier list. */
  lemma {:induction false} TransformAllIsApply(image: Image, ts: seq<Transformer>)
    ensures TransformAll(image, ts) == R.Apply(image, AsModifiers(ts))
    decreases |ts|
  {
    if |ts| > 0 {
      assert AsModifiers(ts)[1..] == AsModifiers(ts[1..]);
      TransformAllIsApply(ts[0].doTransform(image), ts[1..]);
    }
  }

  lemma TransformedIsModified(image: Image, ts: Option<seq<Transformer>>)
    ensures Transformed(image, ts) == R.Modified(image, AsModifierList(ts))
  {
    if ts.Some? {
      TransformAllIsApply(image, ts.value);
    }
  }

  lemma TransformedAgrees(ts: Option<seq<Transformer>>)
    ensures forall image :: Transformed(image, ts) == R.Modified(image, AsModifierList(ts))
  {
    forall image {
      TransformedIsModified(image, ts);
    }
  }

  /** `doTransforms(image:transformers:)`: the loop as written. */
  method DoTransforms(image: Image, transformers: Option<seq<Transformer>>) returns (img: Image)
    ensures transformers.Some? ==> img == TransformAll(image, transformers.value)
    ensures transformers.None? ==> img == image
  {
    img := image;
    if transformers.Some? {
      var ts := transformers.value;
      var i := 0;
      while i < |ts|
        invariant 0 <= i <= |ts|
        invariant img == TransformAll(image, ts[..i])
      {
        TransformAllConcat(image, ts[..i], [ts[i]]);
        assert ts[..i + 1] == ts[..i] + [ts[i]];
        img := ts[i].doTransform(img);
        i := i + 1;
      }
      assert ts[..|ts|] == ts;
    }
  }

  /** The cache key of a transformed image: the `keyFor` shape with transformer identifiers. */
  function KeyFor(url: Url, ts: seq<Transformer>): (r: Url)
    ensures r.scheme == url.scheme && r.host == url.host && r.query == url.query
    ensures |ts| > 0 ==> r != url
    ensures r == AppendingPathComponent(url, Vinci.Bracketed(seq(|ts|, i requires 0 <= i < |ts| => ts[i].identifier)))
  {
    assert Identifiers(AsModifiers(ts)) == seq(|ts|, i requires 0 <= i < |ts| => ts[i].identifier);
    Vinci.KeyFor(url, AsModifiers(ts))
  }

  /**
   * `cachedImage(for:transformers:memoryOnly:)`: the transformed key first,
   * then the base url, whose image is transformed and stored under the
   * transformed key.
   */
  function CachedImage(c: Cache, env: R.Env, url: Url, ts: Option<seq<Transformer>>,
                       memoryOnly: bool): (r: Lookup)
    ensures r.image.None? ==> r.cache == c
    ensures (!HasTransformers(ts) || R.Probe(c, env, KeyFor(url, ts.value), memoryOnly).image.None?)
            && R.Probe(c, env, url, memoryOnly).image.None? ==>
              r == Lookup(None, c)
    ensures HasTransformers(ts) && r.image.Some? ==>
              ObjectFromMemory(r.cache, KeyFor(url, ts.value)) == r.image
    ensures !HasTransformers(ts) ==> r == R.Probe(c, env, url, memoryOnly)
    ensures HasTransformers(ts) && R.Probe(c, env, KeyFor(url, ts.value), memoryOnly).image.Some? ==>
              r == R.Probe(c, env, KeyFor(url, ts.value), memoryOnly)
    ensures HasTransformers(ts) && R.Probe(c, env, KeyFor(url, ts.value), memoryOnly).image.None?
            && R.Probe(c, env, url, memoryOnly).image.Some? ==>
              var base := R.Probe(c, env, url, memoryOnly);
              var transformed := Transformed(base.image.value, ts);
              r == Lookup(Some(transformed),
                          SetObject(base.cache, env.md5, env.io, transformed, KeyFor(url, ts.value)))
  {
    TransformedAgrees(ts);
    R.CachedImage(c, env, url, AsModifierList(ts), memoryOnly)
  }

  /** `get(url:transformers:completionHandler:)`. */
  function Get(v: Vinci.Context, env: R.Env, req: R.Request, url: Url, ts: Option<seq<Transformer>>,
               data: Option<Bytes>): (r: R.Outcome)
    ensures r.completion.cached ==> r.request == req && r.vinci.queue == v.queue
    ensures r.completion.cached ==> r.completion.image.Some?
    ensures r.completion.immediate <==> CachedImage(v.cache, env, url, ts, true).image.Some?
    ensures r.completion.immediate ==> r.completion.cached
    ensures r.completion.cached <==>
              || CachedImage(v.cache, env, url, ts, true).image.Some?
              || CachedImage(v.cache, env, url, ts, false).image.Some?
    ensures r.completion.immediate ==>
              var memory := CachedImage(v.cache, env, url, ts, true);
              r.completion.image == memory.image && r.vinci.cache == memory.cache
    ensures r.completion.cached && !r.completion.immediate ==>
              var full := CachedImage(v.cache, env, url, ts, false);
              r.completion.image == full.image && r.vinci.cache == full.cache
    ensures !r.completion.cached ==>
              && CachedImage(v.cache, env, url, ts, true).image.None?
              && CachedImage(v.cache, env, url, ts, false).image.None?
              && r.vinci.queue == Vinci.AddOperation(v.queue, v.nextOperation)
              && r.request.operation.Some?
              && Op.IsFinished(r.request.operation.value)
              && r.request.operation.value.completions == 1
              && r.request.operation.value.tasksCreated == 1
    ensures !r.completion.cached && (data.None? || data.value.Undecodable?) ==>
              r.completion.image.None? && r.vinci.cache == v.cache
    ensures !r.completion.cached && data.Some? && !data.value.Undecodable? ==>
              var image := Decode(data.value).value;
              && r.completion.image == Some(Transformed(image, ts))
              && ObjectFromMemory(r.vinci.cache, url) == Some(image)
              && (HasTransformers(ts) ==>
                    ObjectFromMemory(r.vinci.cache, KeyFor(url, ts.value)) == r.completion.image)
    ensures !r.completion.cached && data.Some? && !data.value.Undecodable? && env.io.writeSucceeds ==>
              && (!HasTransformers(ts) || Filename(env.md5, url) != Filename(env.md5, KeyFor(url, ts.value)) ==>
                    Object(ClearMemory(r.vinci.cache), env.md5, url).image == Decode(data.value))
              && (HasTransformers(ts) ==>
                    Object(ClearMemory(r.vinci.cache), env.md5, KeyFor(url, ts.value)).image
                    == r.completion.image)
    ensures !r.completion.cached ==>
              forall k :: k != url && (!HasTransformers(ts) || k != KeyFor(url, ts.value)) ==>
                ObjectFromMemory(r.vinci.cache, k) == ObjectFromMemory(v.cache, k)
    ensures !r.completion.cached ==>
              forall f :: f != Filename(env.md5, url)
                          && (!HasTransformers(ts) || f != Filename(env.md5, KeyFor(url, ts.value))) ==>
                (f in r.vinci.cache.disk <==> f in v.cache.disk)
                && (f in v.cache.disk ==> r.vinci.cache.disk[f] == v.cache.disk[f])

    ensures !r.completion.cached && !env.io.writeSucceeds ==>
              forall f :: f in r.vinci.cache.disk ==> f in v.cache.disk && r.vinci.cache.disk[f] == v.cache.disk[f]
    ensures !r.completion.cached && !env.io.writeSucceeds && !env.io.removeSucceeds ==>
              r.vinci.cache.disk == v.cache.disk
  {
    TransformedAgrees(ts);
    R.Get(v, env, req, url, AsModifierList(ts), data)
  }

  /** `cancel()`: forwards to the operation if there is one, and otherwise does nothing. */
  function Cancel(req: R.Request): (r: R.Request)
    ensures req.operation.None? ==> r == req
    ensures r.operation.Some? <==> req.operation.Some?
    ensures r.operation.Some? ==> r.operation.value == Op.Cancel(req.operation.value)
  {
    R.Cancel(req)
  }
}

=== FILE: md5.dfy ===
/**
 * The digest the disk tier uses as a filename (`String.MD5`). The hash itself
 * is a parameter of the model; all that is fixed here is the shape of its
 * output: 32 lower-case hexadecimal characters, one pair per digest byte.
 */
module Md5 {

  predicate IsLowerHexDigit(c: char) {
    '0' <= c <= '9' || 'a' <= c <= 'f'
  }

  predicate IsDigest(s: string) {
    |s| == 32 && forall i :: 0 <= i < |s| ==> IsLowerHexDigit(s[i])
  }

  type Digest = s: string | IsDigest(s) witness "00000000000000000000000000000000"
}

=== FILE: modifiers.dfy ===
/**
 * The shape of the `Modifier` protocol: a unique identifier plus a function on
 * images. The concrete effects (blur, crop, resize, monochrome) are not modelled.
 */
module Modifiers {
  import opened Images

  datatype Modifier = Modifier(identifier: string, apply: Image -> Image)

  /** The identifiers of a modifier list, in list order. */
  function Identifiers(ms: seq<Modifier>): (ids: seq<string>)
    ensures |ids| == |ms|
    ensures forall i :: 0 <= i < |ms| ==> ids[i] == ms[i].identifier
  {
    seq(|ms|, i requires 0 <= i < |ms| => ms[i].identifier)
  }
}

=== FILE: urls.dfy ===
/**
 * The part of Foundation's `URL` that the cache and the key derivation look at.
 * Everything a URL holds besides its path and query (user, port, fragment) is
 * folded into `host`; two URLs are the same key exactly when all four parts agree.
 */
module Urls {

  datatype Url = Url(scheme: string, host: string, path: string, query: string)

  /**
   * Foundation's `URL.path`: the path with one trailing '/' dropped, except
   * for the root path "/", which is kept.
   */
  function Path(u: Url): (p: string)
    ensures |u.path| > 1 && u.path[|u.path| - 1] == '/' ==> p + "/" == u.path
    ensures !(|u.path| > 1 && u.path[|u.path| - 1] == '/') ==> p == u.path
  {
    if |u.path| > 1 && u.path[|u.path| - 1] == '/' then u.path[..|u.path| - 1] else u.path
  }

  /** A path and the same path with a trailing '/' read as the same `URL.path`. */
  lemma TrailingSlashIsDropped(u: Url)
    requires |u.path| > 0 && u.path[|u.path| - 1] != '/'
    ensures Path(u.(path := u.path + "/")) == Path(u) == u.path
  {
  }

  /** The separator `appendingPathComponent` puts between the path and the new component. */
  function Separator(path: string): string {
    if |path| > 0 && path[|path| - 1] == '/' then "" else "/"
  }

  /**
   * Foundation's `URL.appendingPathComponent(_:)`: the component is added to the
   * end of the path after a single '/', and nothing but the path changes.
   */
  function AppendingPathComponent(u: Url, component: string): (r: Url)
    ensures r.scheme == u.scheme && r.host == u.host && r.query == u.query
    ensures |u.path| + |component| <= |r.path| <= |u.path| + |component| + 1
    ensures r.path[..|u.path|] == u.path
    ensures r.path[|r.path| - |component|..] == component
    ensures |component| < |r.path| && r.path[|r.path| - |component| - 1] == '/'
  {
    Url(u.scheme, u.host, u.path + Separator(u.path) + component, u.query)
  }

  /** Appending different components to the same URL gives different URLs. */
  lemma AppendingIsInjective(u: Url, a: string, b: string)
    requires AppendingPathComponent(u, a) == AppendingPathComponent(u, b)
    ensures a == b
  {
    var p := u.path + Separator(u.path);
    assert AppendingPathComponent(u, a).path == p + a;
    assert AppendingPathComponent(u, b).path == p + b;
    assert a == (p + a)[|p|..];
    assert b == (p + b)[|p|..];
  }
}

=== FILE: vinci.dfy ===
/**
 * The shared `Vinci` context: the cache, the operation queue with its
 * recency reweighting (`addOperation`), and the derivation of the cache key
 * of a modified image (`keyFor(url:modifiers:)`).
 */
module Vinci {
  import opened Urls
  import opened Modifiers
  import opened VinciCache

  // ---------------------------------------------------------------------------
  // Queue priorities
  // ---------------------------------------------------------------------------

  /** `Operation.QueuePriority`. */
  datatype Priority = VeryLow | Low | Normal | High | VeryHigh

  /** Foundation's raw value of each priority; a larger value runs sooner. */
  function RawValue(p: Priority): int {
    match p
    case VeryLow => -8
    case Low => -4
    case Normal => 0
    case High => 4
    case VeryHigh => 8
  }

  /** The tier `addOperation` gives the operation at a position counted from the newest. */
  function TierFor(reversedIndex: nat): Priority {
    match reversedIndex
    case 0 => VeryHigh
    case 1 => High
    case 2 => Normal
    case 3 => Low
    case _ => VeryLow
  }

  /** One tier lower, staying at VeryLow. */
  function Demote(p: Priority): (r: Priority)
    ensures RawValue(r) <= RawValue(p)
    ensures p != VeryLow ==> RawValue(r) == RawValue(p) - 4
    ensures p == VeryLow ==> r == VeryLow
  {
    match p
    case VeryHigh => High
    case High => Normal
    case Normal => Low
    case Low => VeryLow
    case VeryLow => VeryLow
  }

  /** An operation in the queue: its identity and its current priority. */
  datatype Queued = Queued(id: nat, priority: Priority)

  function Ids(q: seq<Queued>): (ids: seq<nat>)
    ensures |ids| == |q|
    ensures forall i :: 0 <= i < |q| ==> ids[i] == q[i].id
  {
    seq(|q|, i requires 0 <= i < |q| => q[i].id)
  }

  /** Every operation carries the tier of its position counted from the newest. */
  predicate Weighted(q: seq<Queued>) {
    forall i :: 0 <= i < |q| ==> q[i].priority == TierFor(|q| - 1 - i)
  }

  /**
   * `addOperation(_:)`: the operation joins the end of the queue, then every
   * operation in the queue is given the tier of its position counted from the
   * newest.
   */
  function AddOperation(q: seq<Queued>, id: nat): (r: seq<Queued>)
    ensures Ids(r) == Ids(q) + [id]
    ensures Weighted(r)
    ensures r[|q|].priority == VeryHigh
    ensures |q| >= 1 ==> r[|q| - 1].priority == High
    ensures |q| >= 2 ==> r[|q| - 2].priority == Normal
    ensures |q| >= 3 ==> r[|q| - 3].priority == Low
    ensures forall i :: 0 <= i < |q| - 3 ==> r[i].priority == VeryLow
    ensures forall i, j :: 0 <= i <= j < |r| ==> RawValue(r[i].priority) <= RawValue(r[j].priority)
    ensures Weighted(q) ==> forall i :: 0 <= i < |q| ==> r[i].priority == Demote(q[i].priority)
  {
    var ops := q + [Queued(id, Normal)];
    seq(|ops|, i requires 0 <= i < |ops| => ops[i].(priority := TierFor(|ops| - 1 - i)))
  }

  /**
   * The loop of `addOperation(_:)` as written: walk the queue from the newest
   * operation back, assigning the tier of each reversed index.
   */
  method AddOperationInPlace(q: seq<Queued>, id: nat) returns (r: seq<Queued>)
    ensures r == AddOperation(q, id)
  {
    var ops := q + [Queued(id, Normal)];
    r := ops;
    var index := 0;
    while index < |ops|
      invariant 0 <= index <= |ops| == |r|
      invariant forall i :: 0 <= i < |ops| - index ==> r[i] == ops[i]
      invariant forall i :: |ops| - index <= i < |ops| ==>
                  r[i] == ops[i].(priority := TierFor(|ops| - 1 - i))
    {
      var position := |ops| - 1 - index;
      r := r[position := r[position].(priority := TierFor(index))];
      index := index + 1;
    }
  }

  // ---------------------------------------------------------------------------
  // Keys of modified images
  // ---------------------------------------------------------------------------

  /** Each identifier enclosed in square brackets, joined with no separator, in order. */
  function Bracketed(ids: seq<string>): (s: string)
    ensures |ids| == 0 <==> |s| == 0
  {
    if |ids| == 0 then "" else "[" + ids[0] + "]" + Bracketed(ids[1..])
  }

  /** `keyFor(url:modifiers:)`: the url with one extra path component naming the chain. */
  function KeyFor(url: Url, modifiers: seq<Modifier>): (r: Url)
    ensures r.scheme == url.scheme && r.host == url.host && r.query == url.query
    ensures |modifiers| > 0 ==> r != url
    ensures |url.path| + |Bracketed(Identifiers(modifiers))| <= |r.path|
    ensures r.path[..|url.path|] == url.path
    ensures r.path[|r.path| - |Bracketed(Identifiers(modifiers))|..] == Bracketed(Identifiers(modifiers))
  {
    AppendingPathComponent(url, Bracketed(Identifiers(modifiers)))
  }

  predicate NoClosingBracket(ids: seq<string>) {
    forall i :: 0 <= i < |ids| ==> ']' !in ids[i]
  }

  /** In `"[" + x + "]" + rest` the first ']' sits right after x. */
  lemma FirstClosingBracket(x: string, rest: string)
    requires ']' !in x
    ensures ("[" + x + "]" + rest)[1 + |x|] == ']'
    ensures forall i :: 1 <= i < 1 + |x| ==> ("[" + x + "]" + rest)[i] != ']'
  {
    var s := "[" + x + "]" + rest;
    forall i | 1 <= i < 1 + |x|
      ensures s[i] != ']'
    {
      assert s[i] == x[i - 1];
    }
  }

  /** Bracketing identifiers free of ']' loses nothing: the list can be read back. */
  lemma {:induction false} BracketedIsInjective(a: seq<string>, b: seq<string>)
    requires NoClosingBracket(a) && NoClosingBracket(b)
    requires Bracketed(a) == Bracketed(b)
    ensures a == b
    decreases |a|
  {
    if |a| > 0 {
      var x, y := a[0], b[0];
      var s := Bracketed(a);
      assert s == "[" + x + "]" + Bracketed(a[1..]);
      assert s == "[" + y + "]" + Bracketed(b[1..]);
      FirstClosingBracket(x, Bracketed(a[1..]));
      FirstClosingBracket(y, Bracketed(b[1..]));
      assert |x| == |y|;
      assert x == s[1..1 + |x|];
      assert y == s[1..1 + |y|];
      assert Bracketed(a[1..]) == s[2 + |x|..];
      assert Bracketed(b[1..]) == s[2 + |y|..];
      BracketedIsInjective(a[1..], b[1..]);
      assert a == [x] + a[1..];
      assert b == [y] + b[1..];
    }
  }

  /**
   * `keyFor` determines the ordered identifier list: two chains of identifiers
   * free of ']' get the same key from the same url only if they list the same
   * identifiers in the same order.
   */
  lemma KeyForIsInjective(url: Url, a: seq<Modifier>, b: seq<Modifier>)
    requires NoClosingBracket(Identifiers(a)) && NoClosingBracket(Identifiers(b))
    requires KeyFor(url, a) == KeyFor(url, b)
    ensures Identifiers(a) == Identifiers(b)
  {
    AppendingIsInjective(url, Bracketed(Identifiers(a)), Bracketed(Identifiers(b)));
    BracketedIsInjective(Identifiers(a), Identifiers(b));
  }

  /** Applying two distinct modifiers in the other order gives another key. */
  lemma OrderChangesKey(url: Url, m1: Modifier, m2: Modifier)
    requires m1.identifier != m2.identifier
    requires ']' !in m1.identifier && ']' !in m2.identifier
    ensures KeyFor(url, [m1, m2]) != KeyFor(url, [m2, m1])
  {
    if KeyFor(url, [m1, m2]) == KeyFor(url, [m2, m1]) {
      KeyForIsInjective(url, [m1, m2], [m2, m1]);
    }
  }

  // ---------------------------------------------------------------------------
  // The context
  // ---------------------------------------------------------------------------

  /**
   * A `Vinci` instance's cache, together with the operation queue, which is
   * shared by every instance, and the next fresh operation id.
   */
  datatype Context = Context(cache: Cache, queue: seq<Queued>, nextOperation: nat)
}

=== FILE: vinci_cache.dfy ===
/**
 * `VinciCache`: a memory tier keyed by the whole URL in front of a disk tier
 * whose files are named by the MD5 digest of the key's path alone.
 * `NSCache` eviction is the `ClearMemory` step; a file write is a map update
 * whose success is decided by a `DiskIo` parameter.
 */
module VinciCache {
  import opened Wrappers
  import opened Urls
  import opened Images
  import opened Md5

  /** The two tiers. */
  datatype Cache = Cache(memory: map<Url, Image>, disk: map<Digest, Bytes>)

  /** What the file-system calls of one `setObject` do: remove the old file, write the new one. */
  datatype DiskIo = DiskIo(removeSucceeds: bool, writeSucceeds: bool)

  /** The image a lookup found, and the cache after the lookup. */
  datatype Lookup = Lookup(image: Option<Image>, cache: Cache)

  function Empty(): Cache {
    Cache(map[], map[])
  }

  /** Memory eviction: every memory entry is gone, the disk is untouched. */
  function ClearMemory(c: Cache): (r: Cache)
    ensures r.disk == c.disk
    ensures forall key :: ObjectFromMemory(r, key).None?
  {
    c.(memory := map[])
  }

  /** The file name a key is stored under: the digest of its `URL.path` (not host, not query). */
  function Filename(md5: string -> Digest, key: Url): Digest {
    md5(Path(key))
  }

  // ---------------------------------------------------------------------------
  // Lookups
  // ---------------------------------------------------------------------------

  /** `objectFromMemory(forKey:)`. */
  function ObjectFromMemory(c: Cache, key: Url): (r: Option<Image>)
    ensures r.Some? <==> key in c.memory
    ensures r.Some? ==> r.value == c.memory[key]
  {
    if key in c.memory then Some(c.memory[key]) else None
  }

  /**
   * `objectFromDisk(forKey:)`: reads the file named by the key's path digest;
   * a file that decodes is promoted into the memory tier under the full key.
   */
  function ObjectFromDisk(c: Cache, md5: string -> Digest, key: Url): (r: Lookup)
    ensures r.cache.disk == c.disk
    ensures r.image.Some? <==> Filename(md5, key) in c.disk && Decode(c.disk[Filename(md5, key)]).Some?
    ensures r.image.Some? ==> r.image == Decode(c.disk[Filename(md5, key)])
    ensures r.image.Some? ==> r.cache.memory == c.memory[key := r.image.value]
    ensures r.image.None? ==> r.cache == c
  {
    var f := Filename(md5, key);
    if f in c.disk then
      match Decode(c.disk[f])
      case Some(img) => Lookup(Some(img), c.(memory := c.memory[key := img]))
      case None => Lookup(None, c)
    else
      Lookup(None, c)
  }

  /** `object(forKey:)`: memory first, then disk. */
  function Object(c: Cache, md5: string -> Digest, key: Url): (r: Lookup)
    ensures key in c.memory ==> r == Lookup(Some(c.memory[key]), c)
    ensures key !in c.memory ==> r == ObjectFromDisk(c, md5, key)
    ensures r.cache.disk == c.disk
    ensures r.image.Some? ==> ObjectFromMemory(r.cache, key) == r.image
    ensures r.image.None? ==> r.cache == c
    ensures forall k :: k != key ==> ObjectFromMemory(r.cache, k) == ObjectFromMemory(c, k)
  {
    var image := ObjectFromMemory(c, key);
    if image.Some? then Lookup(image, c) else ObjectFromDisk(c, md5, key)
  }

  // ---------------------------------------------------------------------------
  // Stores
  // ---------------------------------------------------------------------------

  /** Case-folds ASCII upper-case letters, as `lowercased()` does for them. */
  function Lower(s: string): (r: string)
    ensures |r| == |s|
    ensures forall i :: 0 <= i < |s| ==> r[i] == LowerChar(s[i])
  {
    seq(|s|, i requires 0 <= i < |s| => LowerChar(s[i]))
  }

  function LowerChar(c: char): char {
    if 'A' <= c <= 'Z' then (c as int - 'A' as int + 'a' as int) as char else c
  }

  predicate HasSuffix(s: string, suffix: string) {
    |suffix| <= |s| && s[|s| - |suffix|..] == suffix
  }

  /** Lower-casing commutes with taking a suffix. */
  lemma LowerSuffix(s: string, n: nat)
    ensures n <= |s| ==> Lower(s)[|s| - n..] == Lower(s[|s| - n..])
  {
  }

  /**
   * `isPNG(_:)`: the lower-cased name ends in "png", which is the same as its
   * last three characters lower-casing to "png".
   */
  predicate IsPng(filename: string)
    ensures IsPng(filename) <==> |filename| >= 3 && Lower(filename[|filename| - 3..]) == "png"
  {
    LowerSuffix(filename, 3);
    HasSuffix(Lower(filename), "png")
  }

  /** `isJPG(_:)`: the lower-cased name ends in "jpg" or "jpeg". */
  predicate IsJpg(filename: string)
    ensures IsJpg(filename) <==>
              || (|filename| >= 3 && Lower(filename[|filename| - 3..]) == "jpg")
              || (|filename| >= 4 && Lower(filename[|filename| - 4..]) == "jpeg")
  {
    LowerSuffix(filename, 3);
    LowerSuffix(filename, 4);
    HasSuffix(Lower(filename), "jpg") || HasSuffix(Lower(filename), "jpeg")
  }

  /** The format `setObject` encodes with: JPEG for a JPEG name, PNG otherwise. */
  function FormatFor(filename: string): (f: Format)
    ensures f == Jpeg <==> IsJpg(filename)
    ensures IsPng(filename) && !IsJpg(filename) ==> f == Png
  {
    if IsJpg(filename) then Jpeg
    else if IsPng(filename) then Png
    else Png
  }

  /**
   * `setObject(_:forKey:)`: the memory tier is written first and whatever the
   * disk does; then an existing file is removed (if removal succeeds) and the
   * encoded image written atomically over whatever is left (if the write succeeds).
   */
  function SetObject(c: Cache, md5: string -> Digest, io: DiskIo, obj: Image, key: Url): (r: Cache)
    ensures ObjectFromMemory(r, key) == Some(obj)
    ensures forall k :: k != key ==> ObjectFromMemory(r, k) == ObjectFromMemory(c, k)
    ensures forall f :: f != Filename(md5, key) ==> (f in r.disk <==> f in c.disk)
    ensures forall f :: f != Filename(md5, key) && f in c.disk ==> r.disk[f] == c.disk[f]
    ensures io.writeSucceeds ==> Filename(md5, key) in r.disk
                                 && Decode(r.disk[Filename(md5, key)]) == Some(obj)
    ensures !io.writeSucceeds && !io.removeSucceeds ==> r.disk == c.disk
    ensures !io.writeSucceeds && io.removeSucceeds ==> Filename(md5, key) !in r.disk
  {
    var memory := c.memory[key := obj];
    var f := Filename(md5, key);
    var data := Encode(obj, FormatFor(f));
    var afterRemove := if f in c.disk && io.removeSucceeds then c.disk - {f} else c.disk;
    var afterWrite := if io.writeSucceeds then afterRemove[f := data] else afterRemove;
    Cache(memory, afterWrite)
  }

  // ---------------------------------------------------------------------------
  // Properties
  // ---------------------------------------------------------------------------

  /** A memory hit is answered from memory alone and changes nothing. */
  lemma MemoryHitChangesNothing(c: Cache, md5: string -> Digest, key: Url)
    requires key in c.memory
    ensures Object(c, md5, key) == Lookup(Some(c.memory[key]), c)
    ensures Object(c, md5, key).image == ObjectFromMemory(c, key)
  {
  }

  /** A disk hit is promoted: the memory tier answers for the key right after. */
  lemma DiskHitIsPromoted(c: Cache, md5: string -> Digest, key: Url)
    requires key !in c.memory
    requires Filename(md5, key) in c.disk && Decode(c.disk[Filename(md5, key)]).Some?
    ensures Object(c, md5, key).image.Some?
    ensures ObjectFromMemory(Object(c, md5, key).cache, key) == Object(c, md5, key).image
    ensures Object(c, md5, key).image == Decode(c.disk[Filename(md5, key)])
  {
  }

  /** A true miss, or a file that does not decode, returns nothing and promotes nothing. */
  lemma MissChangesNothing(c: Cache, md5: string -> Digest, key: Url)
    requires key !in c.memory
    requires Filename(md5, key) !in c.disk || c.disk[Filename(md5, key)].Undecodable?
    ensures Object(c, md5, key) == Lookup(None, c)
  {
  }

  /**
   * Keys whose paths differ only by a trailing '/' share one file: once memory
   * is gone, the key without the slash answers with what was stored under the
   * key with it.
   */
  lemma TrailingSlashSharesFile(c: Cache, md5: string -> Digest, io: DiskIo, obj: Image, key: Url)
    requires |key.path| > 0 && key.path[|key.path| - 1] != '/'
    requires io.writeSucceeds
    ensures Object(ClearMemory(SetObject(c, md5, io, obj, key.(path := key.path + "/"))), md5, key).image
            == Some(obj)
  {
  }

  /** The memory entry written by `setObject` survives every disk outcome. */
  lemma StoreSurvivesDiskFailure(c: Cache, md5: string -> Digest, io: DiskIo, obj: Image, key: Url)
    ensures Object(SetObject(c, md5, io, obj, key), md5, key).image == Some(obj)
  {
  }

  /**
   * Round trip: after a store whose write succeeds, the key yields the image,
   * and still does once the memory tier has been emptied.
   */
  lemma StoreThenLookup(c: Cache, md5: string -> Digest, io: DiskIo, obj: Image, key: Url)
    requires io.writeSucceeds
    ensures Object(SetObject(c, md5, io, obj, key), md5, key).image == Some(obj)
    ensures Object(ClearMemory(SetObject(c, md5, io, obj, key)), md5, key).image == Some(obj)
  {
  }

  /**
   * Keys that share a path share one file although the memory tier keeps
   * them apart: the second store wins on disk, and once memory is gone the
   * first key answers with the second key's image.
   */
  lemma EqualPathsShareOneFile(c: Cache, md5: string -> Digest, io: DiskIo,
                               a: Image, b: Image, k1: Url, k2: Url)
    requires k1.path == k2.path && k1 != k2
    requires io.writeSucceeds
    ensures var c' := SetObject(SetObject(c, md5, io, a, k1), md5, io, b, k2);
      && ObjectFromMemory(c', k1) == Some(a)
      && ObjectFromMemory(c', k2) == Some(b)
      && Object(ClearMemory(c'), md5, k1).image == Some(b)
  {
  }

  /** The suffix tests fold case, and JPEG is tested before the PNG default. */
  lemma FormatExamples()
    ensures IsJpg("photo.JPG") && IsJpg("photo.Jpeg") && FormatFor("photo.JPEG") == Jpeg
    ensures IsPng("icon.PNG") && FormatFor("icon.PNG") == Png
    ensures !IsJpg("image.gif") && !IsPng("image.gif") && FormatFor("image.gif") == Png
  {
    assert Lower("photo.JPG")[6..] == "jpg";
    assert Lower("photo.Jpeg")[6..] == "jpeg";
    assert Lower("photo.JPEG")[6..] == "jpeg";
    assert Lower("icon.PNG")[5..] == "png";
    assert Lower("icon.PNG")[4..] == ".png";
    assert Lower("image.gif")[6..] == "gif";
    assert Lower("image.gif")[5..] == ".gif";
  }

  /**
   * The suffix tests are applied to the digest, whose last character is a
   * hex digit and never the 'g' all three suffixes end with: a file is always
   * written as PNG.
   */
  lemma DigestIsAlwaysPng(d: Digest)
    ensures !IsJpg(d) && !IsPng(d)
    ensures FormatFor(d) == Png
  {
    var l := Lower(d);
    assert IsLowerHexDigit(d[|d| - 1]);
    assert l[|l| - 1] != 'g';
    SuffixEndsWithLast(l, "png");
    SuffixEndsWithLast(l, "jpg");
    SuffixEndsWithLast(l, "jpeg");
  }

  lemma SuffixEndsWithLast(s: string, suffix: string)
    requires 0 < |suffix|
    ensures HasSuffix(s, suffix) ==> s[|s| - 1] == suffix[|suffix| - 1]
  {
    if HasSuffix(s, suffix) {
      assert s[|s| - 1] == s[|s| - |suffix|..][|suffix| - 1];
    }
  }

  /** Every file `setObject` writes is PNG data. */
  lemma StoredFilesArePng(c: Cache, md5: string -> Digest, io: DiskIo, obj: Image, key: Url)
    requires io.writeSucceeds
    ensures SetObject(c, md5, io, obj, key).disk[Filename(md5, key)] == PngData(obj)
  {
    DigestIsAlwaysPng(Filename(md5, key));
  }
}

=== FILE: vinci_factory.dfy ===
/** The request factories of `Vinci`. */
module VinciFactory {
  import opened Wrappers
  import opened Urls
  import opened Images
  import opened Modifiers
  import Vinci
  import opened VinciRequest

  /** `request(with:modifiers:completionHandler:)`: a new request on which `get` has been called. */
  function RequestWith(v: Vinci.Context, env: Env, url: Url, modifiers: Option<seq<Modifier>>,
                       data: Option<Bytes>): (r: Outcome)
    ensures r == Get(v, env, Fresh(), url, modifiers, data)
    ensures r.request.operation.Some? <==> !r.completion.cached
  {
    Get(v, env, Fresh(), url, modifiers, data)
  }

  /** `request(with:completionHandler:)`: the same with no modifiers, so a fetched image comes back unmodified. */
  function RequestWithoutModifiers(v: Vinci.Context, env: Env, url: Url, data: Option<Bytes>): (r: Outcome)
    ensures r == RequestWith(v, env, url, None, data)
    ensures !r.completion.cached ==> r.completion.image == (if data.Some? then Decode(data.value) else None)
  {
    RequestWith(v, env, url, None, data)
  }
}

=== FILE: vinci_request.dfy ===
/**
 * `VinciRequest`: resolves an image through the cache (modified key first,
 * then the base url), and on a full miss queues an operation whose response is
 * cached and modified. The hops between the caller's thread, the global queue
 * and the main queue are taken one after another.
 */
module VinciRequest {
  import opened Wrappers
  import opened Urls
  import opened Images
  import opened Md5
  import opened Modifiers
  import opened VinciCache
  import Vinci
  import Op = VinciRequestOperation

  /** A request: it owns at most one operation. */
  datatype Request = Request(operation: Option<Op.Operation>)

  /** What `init(vinci:)` creates: a request with no operation, which `cancel()` leaves alone. */
  function Fresh(): (r: Request)
    ensures Cancel(r) == r
  {
    Request(None)
  }

  /** The outside world a request meets: the digest function and the outcome of disk writes. */
  datatype Env = Env(md5: string -> Digest, io: DiskIo)

  /** The single call of the completion handler: image, `isCached`, and whether it ran before `get` returned. */
  datatype Completion = Completion(image: Option<Image>, cached: bool, immediate: bool)

  /** The context, the request and the completion after `get`. */
  datatype Outcome = Outcome(vinci: Vinci.Context, request: Request, completion: Completion)

  // ---------------------------------------------------------------------------
  // Modifier chains
  // ---------------------------------------------------------------------------

  /** The modifier list is present and not empty. */
  predicate HasModifiers(modifiers: Option<seq<Modifier>>) {
    modifiers.Some? && |modifiers.value| > 0
  }

  /**
   * The modifiers applied one after the other, first to last: the result of
   * a non-empty chain is its last modifier applied to the result of the rest.
   */
  function Apply(image: Image, ms: seq<Modifier>): (r: Image)
    ensures |ms| == 0 ==> r == image
    ensures |ms| > 0 ==> r == ms[|ms| - 1].apply(Apply(image, ms[..|ms| - 1]))
    decreases |ms|
  {
    if |ms| == 0 then image
    else
      assert |ms| > 1 ==> ms[..|ms| - 1][1..] == ms[1..][..|ms| - 2];
      Apply(ms[0].apply(image), ms[1..])
  }

  /** Applying a concatenation is applying its parts in turn. */
  lemma {:induction false} ApplyConcat(image: Image, a: seq<Modifier>, b: seq<Modifier>)
    ensures Apply(image, a + b) == Apply(Apply(image, a), b)
    decreases |a|
  {
    if |a| > 0 {
      assert (a + b)[1..] == a[1..] + b;
      ApplyConcat(a[0].apply(image), a[1..], b);
    } else {
      assert a + b == b;
    }
  }

  /** `modify(image:modifiers:)`: the loop over the optional list as written. */
  method Modify(image: Image, modifiers: Option<seq<Modifier>>) returns (img: Image)
    ensures modifiers.None? ==> img == image
    ensures modifiers.Some? ==> img == Apply(image, modifiers.value)
  {
    img := image;
    if modifiers.Some? {
      var ms := modifiers.value;
      var i := 0;
      while i < |ms|
        invariant 0 <= i <= |ms|
        invariant img == Apply(image, ms[..i])
      {
        ApplyConcat(image, ms[..i], [ms[i]]);
        assert ms[..i + 1] == ms[..i] + [ms[i]];
        img := ms[i].apply(img);
        i := i + 1;
      }
      assert ms[..|ms|] == ms;
    }
  }

  /** The result of `modify(image:modifiers:)`, as a function. */
  function Modified(image: Image, modifiers: Option<seq<Modifier>>): (r: Image)
    ensures modifiers.None? || |modifiers.value| == 0 ==> r == image
    ensures modifiers.Some? && |modifiers.value| > 0 ==>
              r == Apply(modifiers.value[0].apply(image), modifiers.value[1..])
  {
    if modifiers.None? then image else Apply(image, modifiers.value)
  }

  /** The key a modified image is cached under. */
  function ModifiedKey(url: Url, modifiers: Option<seq<Modifier>>): (k: Url)
    requires HasModifiers(modifiers)
    ensures k != url
  {
    Vinci.KeyFor(url, modifiers.value)
  }

  // ---------------------------------------------------------------------------
  // Cache lookups
  // ---------------------------------------------------------------------------

  /** One cache query: `objectFromMemory` when `memoryOnly`, `object` otherwise. */
  function Probe(c: Cache, env: Env, key: Url, memoryOnly: bool): (r: Lookup)
    ensures memoryOnly ==> r == Lookup(ObjectFromMemory(c, key), c)
    ensures !memoryOnly ==> r == Object(c, env.md5, key)
    ensures r.image.None? ==> r.cache == c
    ensures r.cache.disk == c.disk
    ensures ObjectFromMemory(c, key).Some? ==> r == Lookup(ObjectFromMemory(c, key), c)
  {
    if memoryOnly then Lookup(ObjectFromMemory(c, key), c) else Object(c, env.md5, key)
  }

  /**
   * `cachedImage(for:modifiers:memoryOnly:)`: with modifiers, the modified key
   * is queried first; on a miss the base url is queried, and a base hit is
   * modified and stored under the modified key (on both tiers, even when
   * `memoryOnly`).
   */
  function CachedImage(c: Cache, env: Env, url: Url, modifiers: Option<seq<Modifier>>,
                       memoryOnly: bool): (r: Lookup)
    ensures r.image.None? ==> r.cache == c
    ensures (!HasModifiers(modifiers) || Probe(c, env, ModifiedKey(url, modifiers), memoryOnly).image.None?)
            && Probe(c, env, url, memoryOnly).image.None? ==>
              r == Lookup(None, c)
    ensures HasModifiers(modifiers) && r.image.Some? ==>
              ObjectFromMemory(r.cache, ModifiedKey(url, modifiers)) == r.image
    ensures !HasModifiers(modifiers) ==> r == Probe(c, env, url, memoryOnly)
    ensures HasModifiers(modifiers) && Probe(c, env, ModifiedKey(url, modifiers), memoryOnly).image.Some? ==>
              r == Probe(c, env, ModifiedKey(url, modifiers), memoryOnly)
    ensures HasModifiers(modifiers) && Probe(c, env, ModifiedKey(url, modifiers), memoryOnly).image.None?
            && Probe(c, env, url, memoryOnly).image.Some? ==>
              var base := Probe(c, env, url, memoryOnly);
              var modified := Modified(base.image.value, modifiers);
              r == Lookup(Some(modified),
                          SetObject(base.cache, env.md5, env.io, modified, ModifiedKey(url, modifiers)))
  {
    var first :=
      if HasModifiers(modifiers) then Probe(c, env, ModifiedKey(url, modifiers), memoryOnly)
      else Lookup(None, c);
    if first.image.Some? then first
    else
      var base := Probe(first.cache, env, url, memoryOnly);
      if base.image.Some? && HasModifiers(modifiers) then
        var modified := Modified(base.image.value, modifiers);
        Lookup(Some(modified), SetObject(base.cache, env.md5, env.io, modified, ModifiedKey(url, modifiers)))
      else
        base
  }

  // ---------------------------------------------------------------------------
  // get
  // ---------------------------------------------------------------------------

  /**
   * Whether the base image and the modified image go to one file: only when
   * there are modifiers and the digest maps both paths to one name.
   */
  predicate SharesFile(env: Env, url: Url, modifiers: Option<seq<Modifier>>) {
    HasModifiers(modifiers) && Filename(env.md5, url) == Filename(env.md5, ModifiedKey(url, modifiers))
  }

  /**
   * The operation's completion handler: no image means `completion(nil, false)`
   * and no cache writes; an image is cached under the url, modified, cached
   * under the modified key when there are modifiers, and handed back.
   */
  function Deliver(c: Cache, env: Env, url: Url, modifiers: Option<seq<Modifier>>,
                   image: Option<Image>): (r: Lookup)
    ensures image.None? ==> r == Lookup(None, c)
    ensures image.Some? ==> r.image == Some(Modified(image.value, modifiers))
    ensures image.Some? ==> ObjectFromMemory(r.cache, url) == image
    ensures image.Some? && HasModifiers(modifiers) ==>
              ObjectFromMemory(r.cache, ModifiedKey(url, modifiers)) == r.image
    ensures image.Some? && !HasModifiers(modifiers) ==>
              r.cache == SetObject(c, env.md5, env.io, image.value, url)
    ensures forall k :: k != url && (!HasModifiers(modifiers) || k != ModifiedKey(url, modifiers)) ==>
              ObjectFromMemory(r.cache, k) == ObjectFromMemory(c, k)
    ensures image.Some? && env.io.writeSucceeds && !SharesFile(env, url, modifiers) ==>
              Object(ClearMemory(r.cache), env.md5, url).image == image
    ensures image.Some? && env.io.writeSucceeds && HasModifiers(modifiers) ==>
              Object(ClearMemory(r.cache), env.md5, ModifiedKey(url, modifiers)).image == r.image
    ensures forall f :: f != Filename(env.md5, url)
                        && (!HasModifiers(modifiers) || f != Filename(env.md5, ModifiedKey(url, modifiers))) ==>
              (f in r.cache.disk <==> f in c.disk) && (f in c.disk ==> r.cache.disk[f] == c.disk[f])

    ensures !env.io.writeSucceeds ==>
              forall f :: f in r.cache.disk ==> f in c.disk && r.cache.disk[f] == c.disk[f]
    ensures !env.io.writeSucceeds && !env.io.removeSucceeds ==> r.cache.disk == c.disk
  {
    match image
    case None => Lookup(None, c)
    case Some(img) =>
      var stored := SetObject(c, env.md5, env.io, img, url);
      if HasModifiers(modifiers) then
        var modified := Modified(img, modifiers);
        Lookup(Some(modified), SetObject(stored, env.md5, env.io, modified, ModifiedKey(url, modifiers)))
      else
        Lookup(Some(img), stored)
  }

  /**
   * `get(url:modifiers:completionHandler:)`: a memory-only lookup answered at
   * once; then a full lookup; then an operation queued with `addOperation`,
   * started, and answered by URLSession with `data`.
   */
  function Get(v: Vinci.Context, env: Env, req: Request, url: Url, modifiers: Option<seq<Modifier>>,
               data: Option<Bytes>): (r: Outcome)
    ensures r.completion.cached ==> r.request == req && r.vinci.queue == v.queue
    ensures r.completion.cached ==> r.completion.image.Some?
    ensures r.completion.immediate ==> r.completion.cached
    ensures r.completion.immediate <==> CachedImage(v.cache, env, url, modifiers, true).image.Some?
    ensures r.completion.cached <==>
              || CachedImage(v.cache, env, url, modifiers, true).image.Some?
              || CachedImage(v.cache, env, url, modifiers, false).image.Some?
    ensures r.completion.immediate ==>
              var memory := CachedImage(v.cache, env, url, modifiers, true);
              r.completion.image == memory.image && r.vinci.cache == memory.cache
    ensures r.completion.cached && !r.completion.immediate ==>
              var full := CachedImage(v.cache, env, url, modifiers, false);
              r.completion.image == full.image && r.vinci.cache == full.cache
    ensures !r.completion.cached ==>
              && CachedImage(v.cache, env, url, modifiers, true).image.None?
              && CachedImage(v.cache, env, url, modifiers, false).image.None?
              && r.vinci.queue == Vinci.AddOperation(v.queue, v.nextOperation)
              && r.request.operation.Some?
              && Op.IsFinished(r.request.operation.value)
              && r.request.operation.value.completions == 1
              && r.request.operation.value.tasksCreated == 1
    ensures !r.completion.cached && (data.None? || data.value.Undecodable?) ==>
              r.completion.image.None? && r.vinci.cache == v.cache
    ensures !r.completion.cached && data.Some? && !data.value.Undecodable? ==>
              var image := Decode(data.value).value;
              && r.completion.image == Some(Modified(image, modifiers))
              && ObjectFromMemory(r.vinci.cache, url) == Some(image)
              && (HasModifiers(modifiers) ==>
                    ObjectFromMemory(r.vinci.cache, ModifiedKey(url, modifiers)) == r.completion.image)
    ensures !r.completion.cached && data.Some? && !data.value.Undecodable? && env.io.writeSucceeds ==>
              && (!SharesFile(env, url, modifiers) ==>
                    Object(ClearMemory(r.vinci.cache), env.md5, url).image == Decode(data.value))
              && (HasModifiers(modifiers) ==>
                    Object(ClearMemory(r.vinci.cache), env.md5, ModifiedKey(url, modifiers)).image
                    == r.completion.image)
    ensures !r.completion.cached ==>
              forall k :: k != url && (!HasModifiers(modifiers) || k != ModifiedKey(url, modifiers)) ==>
                ObjectFromMemory(r.vinci.cache, k) == ObjectFromMemory(v.cache, k)
    ensures !r.completion.cached ==>
              forall f :: f != Filename(env.md5, url)
                          && (!HasModifiers(modifiers) || f != Filename(env.md5, ModifiedKey(url, modifiers))) ==>
                (f in r.vinci.cache.disk <==> f in v.cache.disk)
                && (f in v.cache.disk ==> r.vinci.cache.disk[f] == v.cache.disk[f])

    ensures !r.completion.cached && !env.io.writeSucceeds ==>
              forall f :: f in r.vinci.cache.disk ==> f in v.cache.disk && r.vinci.cache.disk[f] == v.cache.disk[f]
    ensures !r.completion.cached && !env.io.writeSucceeds && !env.io.removeSucceeds ==>
              r.vinci.cache.disk == v.cache.disk
  {
    var memory := CachedImage(v.cache, env, url, modifiers, true);
    if memory.image.Some? then
      Outcome(v.(cache := memory.cache), req, Completion(memory.image, true, true))
    else
      var full := CachedImage(memory.cache, env, url, modifiers, false);
      if full.image.Some? then
        Outcome(v.(cache := full.cache), req, Completion(full.image, true, false))
      else
        var queue := Vinci.AddOperation(v.queue, v.nextOperation);
        var response := Op.Respond(Op.Start(Op.New()), data);
        var delivered := Deliver(full.cache, env, url, modifiers, response.image);
        Outcome(Vinci.Context(delivered.cache, queue, v.nextOperation + 1),
                req.(operation := Some(response.operation)),
                Completion(delivered.image, false, false))
  }

  /** `cancel()`: forwards to the operation if there is one. */
  function Cancel(req: Request): (r: Request)
    ensures req.operation.None? ==> r == req
    ensures r.operation.Some? <==> req.operation.Some?
    ensures r.operation.Some? ==> r.operation.value == Op.Cancel(req.operation.value)
    ensures r.operation.Some? ==>
              && r.operation.value.cancelled
              && !Op.IsExecuting(r.operation.value)
              && r.operation.value.task != Op.Running
              && r.operation.value.completions == req.operation.value.completions
  {
    match req.operation
    case None => req
    case Some(op) => Request(Some(Op.Cancel(op)))
  }

  // ---------------------------------------------------------------------------
  // Properties
  // ---------------------------------------------------------------------------

  /** A memory hit for the request's key answers synchronously, from cache, with no operation. */
  lemma MemoryHitIsImmediate(v: Vinci.Context, env: Env, req: Request, url: Url,
                             modifiers: Option<seq<Modifier>>, data: Option<Bytes>)
    requires HasModifiers(modifiers) ==> ModifiedKey(url, modifiers) in v.cache.memory
    requires !HasModifiers(modifiers) ==> url in v.cache.memory
    ensures var r := Get(v, env, req, url, modifiers, data);
      && r.completion.immediate && r.completion.cached
      && r.request == req && r.vinci == v
      && r.completion.image == Some(v.cache.memory[if HasModifiers(modifiers) then ModifiedKey(url, modifiers) else url])
  {
  }

  /**
   * A base image found on the memory-only path is modified and stored under
   * the modified key on both tiers: the memory-only lookup writes to disk.
   */
  lemma MemoryOnlyPathWritesDisk(v: Vinci.Context, env: Env, req: Request, url: Url,
                                 modifiers: Option<seq<Modifier>>, data: Option<Bytes>)
    requires HasModifiers(modifiers) && env.io.writeSucceeds
    requires ModifiedKey(url, modifiers) !in v.cache.memory && url in v.cache.memory
    ensures var r := Get(v, env, req, url, modifiers, data);
      var modified := Modified(v.cache.memory[url], modifiers);
      && r.completion == Completion(Some(modified), true, true)
      && Filename(env.md5, ModifiedKey(url, modifiers)) in r.vinci.cache.disk
      && r.vinci.cache.disk[Filename(env.md5, ModifiedKey(url, modifiers))] == PngData(modified)
  {
    StoredFilesArePng(v.cache, env.md5, env.io, Modified(v.cache.memory[url], modifiers), ModifiedKey(url, modifiers));
  }

  /** Without modifiers only the base url is consulted and nothing is written. */
  lemma NoModifiersWritesNothing(c: Cache, env: Env, url: Url, modifiers: Option<seq<Modifier>>, memoryOnly: bool)
    requires !HasModifiers(modifiers)
    ensures CachedImage(c, env, url, modifiers, memoryOnly).cache.disk == c.disk
    ensures CachedImage(c, env, url, modifiers, memoryOnly).image == Probe(c, env, url, memoryOnly).image
  {
  }

  /** A fetch that brings no image calls `completion(nil, false)` and writes nothing. */
  lemma FailedFetchWritesNothing(v: Vinci.Context, env: Env, req: Request, url: Url,
                                 modifiers: Option<seq<Modifier>>)
    requires CachedImage(v.cache, env, url, modifiers, false).image.None?
    ensures var r := Get(v, env, req, url, modifiers, None);
      && r.completion == Completion(None, false, false)
      && r.vinci.cache == v.cache
      && r.request.operation.Some?
  {
    assert CachedImage(v.cache, env, url, modifiers, true).image.None?;
  }

  /**
   * Scenario: an empty cache, a fetch of image I without modifiers, then the
   * same request again. The first answer is (I, not cached) after one
   * fetch; the second is (I, cached), synchronous, with no operation.
   */
  lemma FetchThenHit(env: Env, url: Url, img: Image, modifiers: Option<seq<Modifier>>,
                     data: Option<Bytes>)
    requires !HasModifiers(modifiers)
    ensures var first := Get(Vinci.Context(Empty(), [], 0), env, Fresh(), url, modifiers, Some(PngData(img)));
      var second := Get(first.vinci, env, Fresh(), url, modifiers, data);
      && first.completion == Completion(Some(img), false, false)
      && first.request.operation.Some?
      && second.completion == Completion(Some(img), true, true)
      && second.request.operation.None?
  {
  }

  /**
   * Scenario: with the base image in memory, a request with modifiers is
   * answered from cache with the modified image and fetches nothing.
   */
  lemma ModifiersOverCachedBase(v: Vinci.Context, env: Env, url: Url, modifiers: Option<seq<Modifier>>,
                                data: Option<Bytes>)
    requires HasModifiers(modifiers)
    requires url in v.cache.memory && ModifiedKey(url, modifiers) !in v.cache.memory
    ensures var r := Get(v, env, Fresh(), url, modifiers, data);
      && r.completion.image == Some(Modified(v.cache.memory[url], modifiers))
      && r.completion.cached
      && r.request.operation.None?
      && r.vinci.queue == v.queue
  {
  }

  /**
   * From any context in which the full lookup misses, with any modifiers: a
   * fetch of image I answers (modified I, not cached); the same request
   * afterwards is answered at once from memory with the same image and
   * queues nothing.
   */
  lemma FetchThenHitAnyCache(v: Vinci.Context, env: Env, req: Request, url: Url, img: Image,
                             modifiers: Option<seq<Modifier>>, data: Option<Bytes>)
    requires CachedImage(v.cache, env, url, modifiers, false).image.None?
    ensures var first := Get(v, env, req, url, modifiers, Some(PngData(img)));
      var second := Get(first.vinci, env, Fresh(), url, modifiers, data);
      && first.completion == Completion(Some(Modified(img, modifiers)), false, false)
      && second.completion == Completion(Some(Modified(img, modifiers)), true, true)
      && second.request.operation.None?
      && second.vinci == first.vinci
  {
  }

  /**
   * Once the base image is stored, a lookup with modifiers whose modified key
   * misses answers with the modified base image, on either path.
   */
  lemma CachedImageAfterBaseStore(c: Cache, env: Env, url: Url, img: Image,
                                  modifiers: Option<seq<Modifier>>, memoryOnly: bool)
    requires HasModifiers(modifiers)
    requires Probe(SetObject(c, env.md5, env.io, img, url), env, ModifiedKey(url, modifiers), memoryOnly).image.None?
    ensures CachedImage(SetObject(c, env.md5, env.io, img, url), env, url, modifiers, memoryOnly).image
            == Some(Modified(img, modifiers))
  {
  }
}

=== FILE: vinci_request_operation.dfy ===
/**
 * `VinciRequestOperation`: an asynchronous `Operation` that runs one URLSession
 * data task. Its lifecycle is a three-state machine plus Foundation's
 * cancellation flag; the data task is tracked by what has happened to it.
 */
module VinciRequestOperation {
  import opened Wrappers
  import opened Images

  /** `VinciRequestOperation.State`. */
  datatype State = Ready | Executing | Finished

  /** The operation's data task: none yet, running, cancelled while running, or answered. */
  datatype Task = NoTask | Running | Aborted | Delivered

  /**
   * The operation as seen from outside: its state, `isCancelled`, its data
   * task, how many data tasks it has created and how many times it has called
   * its completion handler.
   */
  datatype Operation = Operation(state: State, cancelled: bool, task: Task,
                                 tasksCreated: nat, completions: nat)

  /** `isExecuting`: never true of a ready or a finished operation. */
  predicate IsExecuting(op: Operation)
    ensures IsExecuting(op) ==> op.state != Ready && op.state != Finished
  {
    op.state == Executing
  }

  /** `isFinished`: never true together with `isExecuting`, nor of a ready operation. */
  predicate IsFinished(op: Operation)
    ensures IsFinished(op) ==> !IsExecuting(op) && op.state != Ready
  {
    op.state == Finished
  }

  /** A data task whose handler URLSession has still to call. */
  predicate InFlight(op: Operation) {
    op.task == Running || op.task == Aborted
  }

  /** A freshly initialised operation. */
  function New(): (op: Operation)
    ensures op.state == Ready && !IsExecuting(op) && !IsFinished(op)
    ensures !op.cancelled && !InFlight(op)
    ensures op.tasksCreated == 0 && op.completions == 0
  {
    Operation(Ready, false, NoTask, 0, 0)
  }

  /** `finish()`: only an executing operation moves, and it moves to finished. */
  function Finish(op: Operation): (r: Operation)
    ensures r.state == (if op.state == Ready then Ready else Finished)
    ensures r == op.(state := r.state)
  {
    if IsExecuting(op) then op.(state := Finished) else op
  }

  /** `main()`: re-checks cancellation, otherwise starts exactly one data task. */
  function Main(op: Operation): (r: Operation)
    ensures op.cancelled ==> r == op.(state := Finished)
    ensures !op.cancelled ==> r.state == Executing && r.task == Running
    ensures !op.cancelled ==> r.tasksCreated == op.tasksCreated + 1
    ensures r.cancelled == op.cancelled && r.completions == op.completions
  {
    if op.cancelled then op.(state := Finished)
    else op.(state := Executing, task := Running, tasksCreated := op.tasksCreated + 1)
  }

  /** `start()`: a cancelled operation finishes at once; otherwise it becomes ready and runs `main()`. */
  function Start(op: Operation): (r: Operation)
    ensures op.cancelled ==> r == op.(state := Finished)
    ensures !op.cancelled ==> r.state == Executing && r.task == Running
    ensures !op.cancelled ==> r.tasksCreated == op.tasksCreated + 1
    ensures r.cancelled == op.cancelled && r.completions == op.completions
  {
    if op.cancelled then op.(state := Finished) else Main(op.(state := Ready))
  }

  /**
   * `cancel()`: raises the flag, cancels a running data task and finishes an
   * executing operation; a ready operation stays ready.
   */
  function Cancel(op: Operation): (r: Operation)
    ensures r.cancelled
    ensures r.state == (if op.state == Ready then Ready else Finished)
    ensures r.task == (if op.task == Running then Aborted else op.task)
    ensures r.tasksCreated == op.tasksCreated && r.completions == op.completions
  {
    var flagged := op.(cancelled := true, task := if op.task == Running then Aborted else op.task);
    Finish(flagged)
  }

  /** What the data-task handler leaves behind: the operation and the image handed to the completion. */
  datatype Response = Response(operation: Operation, image: Option<Image>)

  /**
   * The data-task handler: decodes the response data (a cancelled task
   * reports no data), calls the completion handler once, then `finish()`.
   */
  function Respond(op: Operation, data: Option<Bytes>): (r: Response)
    requires InFlight(op)
    ensures r.operation.completions == op.completions + 1
    ensures r.operation.task == Delivered && !InFlight(r.operation)
    ensures r.operation.state == (if op.state == Ready then Ready else Finished)
    ensures r.operation.cancelled == op.cancelled && r.operation.tasksCreated == op.tasksCreated
    ensures data.None? || op.task == Aborted ==> r.image.None?
    ensures op.task == Running && data.Some? ==> r.image == Decode(data.value)
  {
    var received := if op.task == Aborted then None else data;
    var image := match received
      case Some(bytes) => Decode(bytes)
      case None => None;
    Response(Finish(op.(task := Delivered, completions := op.completions + 1)), image)
  }

  // ---------------------------------------------------------------------------
  // Lifecycles
  // ---------------------------------------------------------------------------

  /** The calls an operation receives: from the queue, from its request, and from URLSession. */
  datatype Event = StartCall | CancelCall | TaskResponse(data: Option<Bytes>)

  /** An operation together with whether the queue has started it. */
  datatype Trace = Trace(operation: Operation, started: bool)

  /**
   * Runs a sequence of calls. The result is None when the sequence is not one
   * the environment produces: the queue starts an operation at most once, and
   * URLSession answers only a data task it is running.
   */
  function Run(t: Trace, events: seq<Event>): Option<Trace>
    decreases |events|
  {
    if |events| == 0 then Some(t)
    else match events[0]
      case StartCall =>
        if t.started then None else Run(Trace(Start(t.operation), true), events[1..])
      case CancelCall =>
        Run(Trace(Cancel(t.operation), t.started), events[1..])
      case TaskResponse(data) =>
        if InFlight(t.operation) then Run(Trace(Respond(t.operation, data).operation, t.started), events[1..])
        else None
  }

  /** The states a new operation can reach. */
  predicate Reachable(t: Trace) {
    var op := t.operation;
    && (!t.started ==> op.state == Ready && op.task == NoTask && op.tasksCreated == 0 && op.completions == 0)
    && (t.started && op.task == NoTask ==>
          op.state == Finished && op.cancelled && op.tasksCreated == 0 && op.completions == 0)
    && (t.started && op.task == Running ==>
          op.state == Executing && !op.cancelled && op.tasksCreated == 1 && op.completions == 0)
    && (t.started && op.task == Aborted ==>
          op.state == Finished && op.cancelled && op.tasksCreated == 1 && op.completions == 0)
    && (t.started && op.task == Delivered ==>
          op.state == Finished && op.tasksCreated == 1 && op.completions == 1)
  }

  lemma {:induction false} RunStaysReachable(t: Trace, events: seq<Event>)
    requires Reachable(t)
    requires Run(t, events).Some?
    ensures Reachable(Run(t, events).value)
    decreases |events|
  {
    if |events| > 0 {
      match events[0]
      case StartCall =>
        RunStaysReachable(Trace(Start(t.operation), true), events[1..]);
      case CancelCall =>
        RunStaysReachable(Trace(Cancel(t.operation), t.started), events[1..]);
      case TaskResponse(data) =>
        RunStaysReachable(Trace(Respond(t.operation, data).operation, t.started), events[1..]);
    }
  }

  /**
   * Whatever order the start, cancel and response calls come in: at most one
   * data task is created and the completion handler runs at most once; once
   * started, an operation whose task has answered, or that has been
   * cancelled, is finished.
   */
  lemma Lifecycle(events: seq<Event>)
    requires Run(Trace(New(), false), events).Some?
    ensures var t := Run(Trace(New(), false), events).value;
      && t.operation.tasksCreated <= 1
      && t.operation.completions <= 1
      && (t.started && !InFlight(t.operation) ==> IsFinished(t.operation))
      && (t.started && t.operation.cancelled ==> IsFinished(t.operation))
  {
    RunStaysReachable(Trace(New(), false), events);
  }

  /**
   * An operation cancelled before the queue starts it never creates a data
   * task and never calls its completion handler.
   */
  lemma CancelledBeforeStart(events: seq<Event>)
    requires |events| > 0 && events[0] == CancelCall
    requires Run(Trace(New(), false), events).Some?
    ensures Run(Trace(New(), false), events).value.operation.tasksCreated == 0
    ensures Run(Trace(New(), false), events).value.operation.completions == 0
  {
    CancelledStaysIdle(Trace(Cancel(New()), false), events[1..]);
  }

  lemma {:induction false} CancelledStaysIdle(t: Trace, events: seq<Event>)
    requires t.operation.cancelled && t.operation.task == NoTask
    requires t.operation.tasksCreated == 0 && t.operation.completions == 0
    requires Run(t, events).Some?
    ensures Run(t, events).value.operation.tasksCreated == 0
    ensures Run(t, events).value.operation.completions == 0
    decreases |events|
  {
    if |events| > 0 {
      match events[0]
      case StartCall =>
        CancelledStaysIdle(Trace(Start(t.operation), true), events[1..]);
      case CancelCall =>
        CancelledStaysIdle(Trace(Cancel(t.operation), t.started), events[1..]);
      case TaskResponse(data) =>
    }
  }

  /**
   * `start()` does not look at the state: started again after finishing, an
   * operation that was not cancelled fetches a second time and calls its
   * completion handler twice. The at-most-once guarantee above rests on the
   * queue starting each operation once.
   */
  lemma RestartFetchesAgain(data: Option<Bytes>)
    ensures var first := Respond(Start(New()), data).operation;
      && IsFinished(first)
      && Respond(Start(first), data).operation.completions == 2
      && Respond(Start(first), data).operation.tasksCreated == 2
  {
  }
}

=== FILE: wrappers.dfy ===
/** The optional value used throughout the model for Swift's `T?`. */
module Wrappers {

  datatype Option<+T> = None | Some(value: T)
}
